=== FILE: README.md ===
# sbr installment ledger, modelled in Dafny

`sbr_app` is a Django application that sells building lots on credit. A sale
(`Contrato`) finances a balance over N monthly installments (`Cuota`). A
delinquency engine charges a flat penalty (`mora`) on overdue installments.
A payment processor pours each client payment (`Pago`) over the open
installments in order. A handful of views close, cancel or refund a
contract, toggle an installment's penalty exemption, and total the money
in a monthly report and a general month-by-month report.

This project models that accounting core as pure functions over immutable
records:

- money is integer cents (`Models.Centavos`), which is exactly what the
  two-decimal `DecimalField`s hold;
- the `Decimal('0.01')` tolerance is `Models.TOLERANCIA`, one cent;
- dates are proleptic Gregorian `Calendar.Fecha` values compared like Python
  `date`s, with day differences taken from the same ordinal Python uses, and
  month steps (`relativedelta(months=k)`) clamped to the month's last day;
- "today", the system configuration row and the user are parameters;
- a contract owns its installments (held in `numero_cuota` order, the model's
  `Meta.ordering`) and its payments (held in creation order).

Modules, one per concern: `Wrappers` (Option/Result), `Calendar`, `Text`
(the `str` operations the views use), `Models` (records, enums, defaults,
`total_a_pagar`/`saldo_pendiente`), `Amortizacion` (schedule generator),
`Moras` (delinquency engine), `Pagos` (payment processor), `Ciclo` (detail
panel, close/cancel/refund, exemption toggle), `Venta` (sale creation and the
down-payment note), `ReporteMensual` and `ReporteGeneral`.

Behaviours of the code that are easy to misread, which the model keeps as written:

- the base installment is `round(Decimal, 2)`, i.e. round-half-even, not half-up;
- the first due date is the contract date itself (the "+1 month" line is commented out);
- an exempt overdue installment still becomes VENCIDO, with a zero penalty;
- when no configuration row exists, the light tier starts at 1 day, not 5;
- closing sums `capital + mora - pagado` over all installments, so an overpaid
  installment offsets another's debt, and closing never checks that the contract is ACTIVO.

## Model

| member | source | states |
|---|---|---|
| Models.LeerEstadoCuota | Aplicaciones/sbr_app/models.py:124-129 | a stored installment state is read back exactly when it is one of PENDIENTE/PARCIAL/PAGADO/VENCIDO |
| Models.EstadoCuotaRoundTrip | Aplicaciones/sbr_app/models.py:124-129 | every installment state's stored code reads back as that state |
| Models.LeerEstadoContrato | Aplicaciones/sbr_app/models.py:110-116 | a stored contract state is read back exactly when it is one of the five choices |
| Models.EstadoContratoRoundTrip | Aplicaciones/sbr_app/models.py:110-117 | every contract state's stored code reads back as that state |
| Models.ConfiguracionNueva | Aplicaciones/sbr_app/models.py:5-26 | a fresh configuration row carries the field defaults: light tier 5 days / $5.00, middle tier 10 days / $10.00, grave tier 20 days / $20.00, percentage 3.00, and the given company name and RUC; so tier days and amounts strictly increase |
| Models.LoteNuevo | Aplicaciones/sbr_app/models.py:41-52 | a new lot is DISPONIBLE and keeps its cash price |
| Models.CuotaNueva | Aplicaciones/sbr_app/models.py:131-146 | a new installment keeps number, due date and principal, and starts PENDIENTE with no penalty, nothing paid, not exempt, no last payment date |
| Models.ContratoNuevo | Aplicaciones/sbr_app/models.py:89-117 | a new contract is ACTIVO, not delinquent, without cancellation date, installments or payments, and keeps its financial fields |
| Models.SaldoPendiente | Aplicaciones/sbr_app/models.py:151-167 | the pending balance, measured against `TotalAPagar` (principal plus penalty), is never negative and never between 0 and one cent; it equals principal + penalty - paid when that is at least one cent, and is 0 exactly when that is below one cent |
| Models.SumaMontosAppend | Aplicaciones/sbr_app/views.py:253 | adding a payment adds its amount to the total paid on a contract |
| Ciclo.PagoSumaALaDevolucion | Aplicaciones/sbr_app/views.py:253 | a payment registered before a refund raises the reported refund by exactly its amount |
| Models.NadaPendienteSumaNoPositiva | Aplicaciones/sbr_app/views.py:205-207 | when no installment owes anything, the close balance is not positive |
| Calendar.AddMonths | Aplicaciones/sbr_app/services.py:90 | stepping k months lands k months later, keeps the day when it fits and otherwise clamps it to the month's last day |
| Calendar.AddMonthsStrictlyIncreasing | Aplicaciones/sbr_app/services.py:85-90 | due dates of later installments are strictly later |
| Calendar.BeforeIffLater | Aplicaciones/sbr_app/services.py:144-146 | a due date is before today exactly when the day difference is at least one |
| Text.Partition | Aplicaciones/sbr_app/views.py:333 | `str.partition`: the separator is found iff the string contains it, the pieces rebuild the string, and the head holds no earlier occurrence |
| Text.FindAfterHead | Aplicaciones/sbr_app/views.py:331 | `split(sep)[1]` of `x + sep + z` starts right after `x` when `x` lacks `sep` |
| Text.LStrip | Aplicaciones/sbr_app/views.py:334-337 | leading whitespace (Python's `isspace` set) is removed and nothing else |
| Text.RStripBy | Aplicaciones/sbr_app/views.py:334-337 | trailing characters of the given class are removed and nothing else |
| Text.StripSpaceThenTrimmed | Aplicaciones/sbr_app/views.py:334 | stripping a single leading blank off an already trimmed string gives it back |
| Text.RStripDotsDrops | Aplicaciones/sbr_app/views.py:334 | `rstrip(".")` removes an appended full stop |
| Text.DecimalRoundTrip | Aplicaciones/sbr_app/services.py:222 | the decimal rendering of an amount reads back as that amount |
| Text.Amount | Aplicaciones/sbr_app/services.py:222 | an amount in cents renders as units, a point, and two cent digits that read back as the amount |
| Amortizacion.RedondearMitadPar | Aplicaciones/sbr_app/services.py:69 | the base installment is within half a cent of balance / n, and an exact tie goes to the even cent |
| Amortizacion.RedondeoUnico | Aplicaciones/sbr_app/services.py:69 | half-even rounding is the only value with those two properties |
| Amortizacion.MitadPar | Aplicaciones/sbr_app/services.py:69 | ties round to even: 2.5 -> 2, 7.5 -> 8, -2.5 -> -2 cents |
| Amortizacion.GenerarTablaAmortizacion | Aplicaciones/sbr_app/services.py:60-112 | the old schedule is always dropped; with N <= 0 nothing is created and the result is False; otherwise N installments numbered 1..N due from the base date month by month, all PENDIENTE and unpaid, the first N-1 carrying the base and the last the remainder; only the installments change |
| Amortizacion.CuotasDesdeForma | Aplicaciones/sbr_app/services.py:85-111 | for the loop `CuotasDesde` over numbers i..N, the k-th installment it produces is a fresh installment numbered i+k, due on its monthly date, and carrying the base principal, or the remainder when it is the last |
| Amortizacion.CuotasDesdeSuma | Aplicaciones/sbr_app/services.py:92-98 | the principals of the generated installments add up to the running balance they started from |
| Amortizacion.TablaConcilia | Aplicaciones/sbr_app/services.py:92-98 | a generated schedule's principals add up exactly to the financed balance |
| Amortizacion.CapitalesSuman | Aplicaciones/sbr_app/services.py:92-98 | N-1 base installments plus a last one add up to (N-1)·base + last |
| Amortizacion.TablaOrdenada | Aplicaciones/sbr_app/services.py:85-90 | a generated schedule is numbered 1..N in order, its due dates strictly increase, and installment 1 is due on the base date |
| Amortizacion.TablaNueva | Aplicaciones/sbr_app/services.py:100-108 | a generated schedule is consistent, PENDIENTE throughout, with no exemption, no penalty and nothing paid |
| Amortizacion.TresCuotas | Aplicaciones/sbr_app/services.py:69-98 | $1000.00 over 3 installments gives 333.33, 333.33, 333.34 |
| Amortizacion.UltimaNegativa | Aplicaciones/sbr_app/services.py:69-98 | $1.00 over 150 installments gives a base of one cent and a last installment of -49 cents |
| Moras.MoraPorAtraso | Aplicaciones/sbr_app/services.py:147-157 | the penalty is 0 or one of the three tier amounts, 0 below every threshold, and within [0, grave] for an ordered policy |
| Moras.MoraEsNivelAlcanzado | Aplicaciones/sbr_app/services.py:152-157 | with ordered thresholds (equal ones allowed) the penalty is the highest tier reached: grave, media, leve or 0 |
| Moras.MoraMonotona | Aplicaciones/sbr_app/services.py:152-157 | for an ordered policy, a longer delay never costs less |
| Moras.ActualizarCuota | Aplicaciones/sbr_app/services.py:144-162 | refreshing an installment changes only its state and penalty; an affected one (being collected and past due) becomes VENCIDO with penalty 0 when exempt and otherwise the tier its days late reach; any other is unchanged |
| Moras.HayVencidas | Aplicaciones/sbr_app/services.py:165 | true exactly when some installment is VENCIDO |
| Moras.ActualizarMoras | Aplicaciones/sbr_app/services.py:119-168 | an open installment due before today becomes VENCIDO with the penalty its delay earns (0 when exempt); every other installment is untouched; `esta_en_mora` holds exactly when some installment is VENCIDO; nothing else in the contract changes |
| Moras.MorasConservanPagos | Aplicaciones/sbr_app/services.py:138-162 | the refresh never changes amounts paid, principals, numbers, exemptions or PAGADO installments |
| Moras.MorasIdempotente | Aplicaciones/sbr_app/services.py:119-168 | refreshing twice on the same day gives the same contract as refreshing once |
| Moras.NadaAtrasadoSinVencer | Aplicaciones/sbr_app/services.py:142-160 | after the refresh no open installment due before today is left outside VENCIDO |
| Moras.ExentaVencidaSinMora | Aplicaciones/sbr_app/services.py:149-161 | an exempt overdue installment becomes VENCIDO with penalty 0 and the contract is flagged delinquent |
| Moras.MorasPreservan | Aplicaciones/sbr_app/services.py:138-162 | the refresh keeps the installments in number order and consistent |
| Moras.FallbackCobraDesdeElPrimerDia | Aplicaciones/sbr_app/services.py:126-136 | `PoliticaVigente` without a configuration row charges an overdue non-exempt installment at least $5.00 from the first day |
| Moras.FallbackFrenteAConfiguracionNueva | Aplicaciones/sbr_app/services.py:131-136 | the fallback policy equals a fresh configuration's except that the light tier starts at day 1 instead of 5 |
| Moras.DiezDiasDeAtraso | Aplicaciones/sbr_app/services.py:144-161 | ten days late under thresholds 5/15/30 charges the light tier |
| Moras.DiezDiasConfiguracionNueva | Aplicaciones/sbr_app/services.py:144-161 | ten days late under a fresh configuration charges the middle tier, $10.00 |
| Pagos.DeudaEnCobro | Aplicaciones/sbr_app/services.py:187-195 | the debt the allocator can absorb is never negative |
| Pagos.Repartir | Aplicaciones/sbr_app/services.py:187-219 | allocation keeps the installment count, conserves money (paid after + leftover = paid before + funds), leaves exactly the surplus over the open debt, changes nothing when funds are not positive, and changes each installment only by a capped abono that leaves it PAGADO or PARCIAL with its state, payment and date |
| Pagos.RegistrarPago | Aplicaciones/sbr_app/services.py:173-226 | a Pago with the full amount, today's date, method, evidence and user is appended; only installments, payments and the delinquency flag change; money is conserved; the surplus note (`NotaSaldoAFavor`) is written iff money is left over, and then names that surplus |
| Pagos.SoloSiSigue | Aplicaciones/sbr_app/services.py:191-202 | a later installment is touched only if the loop went past the first one |
| Pagos.TocadaTrasSaldadas | Aplicaciones/sbr_app/services.py:191-208 | if a later installment is touched, every earlier open one ended PAGADO with nothing pending |
| Pagos.RepartoEnOrden | Aplicaciones/sbr_app/services.py:187-219 | installments are paid in number order: any open installment before a touched one is fully settled |
| Pagos.ParcialEsLaUltima | Aplicaciones/sbr_app/services.py:209-217 | a partially paid installment is PARCIAL, nothing is left over and every later installment is untouched |
| Pagos.SobranteSoloSiTodoSaldado | Aplicaciones/sbr_app/services.py:221-223 | money is left over only when every open installment ended PAGADO with nothing pending |
| Pagos.PagoExactoDeLaPrimera | Aplicaciones/sbr_app/services.py:204-208 | paying exactly what the first owing installment lacks settles it, stamps today and touches nothing else |
| Pagos.AbonoPreserva | Aplicaciones/sbr_app/services.py:191-219 | capped payments keep installments in number order and consistent |
| Pagos.PagoPreserva | Aplicaciones/sbr_app/services.py:173-226 | registering a payment keeps installments in number order and consistent |
| Ciclo.Proxima | Aplicaciones/sbr_app/views.py:187 | the next installment shown is the first PENDIENTE or PARCIAL one, or none when there is none |
| Ciclo.VerDetalle | Aplicaciones/sbr_app/views.py:161-198 | the panel first refreshes delinquency, then shows: VENCIDO rows iff the contract is flagged delinquent; the sum of their penalties (`MoraVencida`); the next installment; the summed balance; and a close button (`PuedeCerrar`) that is offered iff balance <= 0 and ACTIVO, and whose use succeeds |
| Ciclo.Cerrar | Aplicaciones/sbr_app/views.py:201-216 | closing fails exactly when the summed balance is positive, reporting it; otherwise only the state changes, to CERRADO on a POST, whatever the prior state |
| Ciclo.PuedeCerrarBastaParaCerrar | Aplicaciones/sbr_app/views.py:196-213 | an offered close succeeds, and closing succeeds iff offered or the balance is settled on a non-ACTIVO contract |
| Ciclo.Liberar | Aplicaciones/sbr_app/views.py:224-231 | ending a contract sets its state and today's cancellation date, and frees the lot |
| Ciclo.Cancelar | Aplicaciones/sbr_app/views.py:220-235 | a POST writes only CANCELADO and today's cancellation date on the contract and DISPONIBLE on the lot, every other field of both unchanged; a GET changes nothing |
| Ciclo.Devolver | Aplicaciones/sbr_app/views.py:239-257 | a POST writes only DEVOLUCION and today's cancellation date on the contract and DISPONIBLE on the lot, every other field of both unchanged, and reports the sum of all payments as the refund; a GET changes nothing |
| Ciclo.CancelarLiberaSiempre | Aplicaciones/sbr_app/views.py:224-250 | whatever the prior state, cancel and refund free the lot and the contract no longer offers closing |
| Ciclo.AlternarExencion | Aplicaciones/sbr_app/views.py:843-869 | an unknown installment is a 404; a POST flips that installment's exemption only, keeps all amounts paid, and refreshes delinquency; a GET changes nothing |
| Ciclo.AlternarDosVeces | Aplicaciones/sbr_app/views.py:855-861 | toggling twice restores the original exemptions and leaves just the delinquency refresh |
| Ciclo.EximirVencida | Aplicaciones/sbr_app/views.py:855-861 | exempting an overdue installment keeps it VENCIDO with a zero penalty and the contract delinquent |
| Ciclo.TodasPagadasSinSaldo | Aplicaciones/sbr_app/views.py:205-207 | when every consistent installment is PAGADO the close balance is not positive |
| Ciclo.PagoConSobranteCierra | Aplicaciones/sbr_app/views.py:205-213 | after a payment larger than the open debt the balance is settled and closing succeeds |
| Venta.MetodoModelo | Aplicaciones/sbr_app/views.py:83 | TRANSFERENCIA and DEPOSITO are stored as TRANSFERENCIA, anything else as EFECTIVO |
| Venta.PagoDeEntrada | Aplicaciones/sbr_app/views.py:83-114 | a down payment is recorded iff the down payment is positive, with the contract date, the mapped method and the note `NotaEntrada`, which adds the " Banco: B. Cuenta/Comp: C." suffix (`DatosBancarios`) only for a transfer |
| Venta.CrearVenta | Aplicaciones/sbr_app/views.py:53-128 | a sale marks the lot VENDIDO, creates an ACTIVO contract with the form's figures and the down payment, and a schedule of `plazo` installments (none if not positive) that add up to the balance with nothing paid, installment i being number i, due i-1 months after the contract date, with the half-even base principal or the remainder for the last; after the first delinquency refresh an installment is VENCIDO exactly when it is already past due, then with the penalty of the tier its days late reach, and otherwise still PENDIENTE with no penalty, and the contract is flagged delinquent exactly when some installment is VENCIDO |
| Venta.VentaProgramaDesdeLaFecha | Aplicaciones/sbr_app/views.py:119-122 | a sale's first installment is due on the contract date and the schedule is numbered 1..N unpaid |
| Venta.VentaAtrasadaNaceEnMora | Aplicaciones/sbr_app/views.py:122-123 | a back-dated sale is born delinquent, with installment 1 VENCIDO |
| Venta.DevolverTrasVenta | Aplicaciones/sbr_app/views.py:105-114 | refunding a fresh sale returns exactly the positive down payment, or 0 |
| Venta.LeerPagoEntrada | Aplicaciones/sbr_app/views.py:320-344 | the Word export labels the down payment TRANSFERENCIA BANCARIA, DEPÓSITO or EFECTIVO, shows bank details only with a transfer, and says EFECTIVO when there is no payment |
| Venta.LeerDatosBancarios | Aplicaciones/sbr_app/views.py:325-338 | bank details come back only from a note that carries both the "Banco:" and "Cuenta/Comp:" headings; its inverse on a built note is `DatosBancariosIdaYVuelta` |
| Venta.PrimeraCabecera | Aplicaciones/sbr_app/views.py:330-331 | in a built transfer note the first "Banco:" is the one the sale wrote |
| Venta.SeparadorTrasBanco | Aplicaciones/sbr_app/views.py:332-333 | the ". Cuenta/Comp:" partition splits the note at the bank/account seam |
| Venta.CuentaLimpia | Aplicaciones/sbr_app/views.py:334 | the account part, stripped of its dot and blanks, is the account given |
| Venta.DatosBancariosIdaYVuelta | Aplicaciones/sbr_app/views.py:86-88 | for trimmed bank and account free of the markers, the note parses back to exactly that bank and account |
| Venta.TransferenciaIdaYVuelta | Aplicaciones/sbr_app/views.py:320-338 | a transfer sale's note is read back as TRANSFERENCIA BANCARIA with its bank and account |
| Venta.DepositoIdaYVuelta | Aplicaciones/sbr_app/views.py:341-342 | a deposit sale is stored as TRANSFERENCIA but read back as DEPÓSITO without bank details |
| Venta.EfectivoIdaYVuelta | Aplicaciones/sbr_app/views.py:343-344 | a cash sale is read back as EFECTIVO |
| ReporteMensual.Sumar | Aplicaciones/sbr_app/views.py:484-490 | adding to a client's entry raises that client's value and the table total by the amount and keeps keys unique |
| ReporteMensual.Asignar | Aplicaciones/sbr_app/views.py:501-506 | writing a client's entry sets that value, replaces the old one in the total and keeps keys unique |
| ReporteMensual.PrimerDia | Aplicaciones/sbr_app/views.py:466 | the report starts on the first of the current month |
| ReporteMensual.Agrupar | Aplicaciones/sbr_app/views.py:481-492 | grouping payments by client keeps every client's sum and the grand total |
| ReporteMensual.EntradasSuman | Aplicaciones/sbr_app/views.py:471-492 | the month's payments add up to the sum of each contract's income in the month |
| ReporteMensual.MoraDe | Aplicaciones/sbr_app/views.py:496-500 | a contract counts as delinquent iff ACTIVO, flagged and owing on VENCIDO installments |
| ReporteMensual.DeudaVencida | Aplicaciones/sbr_app/views.py:497-498 | the debt on VENCIDO installments is never negative, and is 0 exactly when no VENCIDO installment has a pending balance |
| ReporteMensual.AsignarMoras | Aplicaciones/sbr_app/views.py:495-508 | the delinquency table never totals more than the contracts' debts |
| ReporteMensual.MoraSinRepetidos | Aplicaciones/sbr_app/views.py:495-508 | with one contract per client the delinquency total is the sum of their debts |
| ReporteMensual.MoraMismoCliente | Aplicaciones/sbr_app/views.py:501 | two delinquent contracts of one client: only the later debt is counted |
| ReporteMensual.DevolucionesSuman | Aplicaciones/sbr_app/views.py:512-526 | refunds total the payments of contracts refunded this month |
| ReporteMensual.Generar | Aplicaciones/sbr_app/views.py:461-550 | the report covers the first of the month to today, one entry per client, income is the month's payments, delinquency lies between 0 and the debts (equal with one contract per client), refunds total this month's refunds, and net = income - delinquency - refunds |
| ReporteMensual.PagoDeHoyEnElReporte | Aplicaciones/sbr_app/views.py:471-492 | registering a payment today raises the month's income by exactly its amount |
| ReporteMensual.DevolucionDeHoyEnElReporte | Aplicaciones/sbr_app/views.py:512-526 | refunding a contract today raises the month's refunds by its payments |
| ReporteGeneral.FinDeMes | Aplicaciones/sbr_app/views.py:574 | the end of a month is its last day |
| ReporteGeneral.Desde | Aplicaciones/sbr_app/views.py:565-569 | the range starts on the first of the given month, or on 1 January of this year; a month that does not exist is an error |
| ReporteGeneral.Hasta | Aplicaciones/sbr_app/views.py:571-576 | the range ends on the last day of the given month, or today; a month that does not exist is an error |
| ReporteGeneral.Meses | Aplicaciones/sbr_app/views.py:584-592 | the columns are the consecutive months from the start to the end, one per month, each on day 1 |
| ReporteGeneral.PagosMensuales | Aplicaciones/sbr_app/views.py:628-638 | each column holds what was paid on installments due that month |
| ReporteGeneral.FilaDe | Aplicaciones/sbr_app/views.py:611-639 | a row's total paid is the sum of its monthly values and it is marked as a refund iff DEVOLUCION |
| ReporteGeneral.Filtrar | Aplicaciones/sbr_app/views.py:599-600 | "only active" keeps exactly the ACTIVO contracts, each as many times as it is listed (so no row is doubled or lost); otherwise all are kept as they are |
| ReporteGeneral.ColumnasSumanElTotal | Aplicaciones/sbr_app/views.py:641-651 | the monthly totals add up to the general total, refunds counted negatively |
| ReporteGeneral.TotalesMensuales | Aplicaciones/sbr_app/views.py:605-646 | each monthly total is column i read down the rows (`ColumnaFirmada`), refund rows subtracted |
| ReporteGeneral.Generar | Aplicaciones/sbr_app/views.py:554-665 | the report fails iff a month does not exist. Otherwise it has one column per month and one row per selected contract; each monthly total is the signed sum of that column over the rows; the general total is the signed sum of the row totals (`TotalGeneral`) and equals the sum of the monthly totals; the installment total (`TotalCuotas`) sums each contract's first principal |
| ReporteGeneral.TotalGeneralReemplazado | Aplicaciones/sbr_app/views.py:647-651 | changing one row changes the general total by that row's signed difference |
| ReporteGeneral.DevolucionRestaDosVeces | Aplicaciones/sbr_app/views.py:642-651 | refunding a contract lowers the general total by twice what it had paid |
| ReporteGeneral.RangoPorDefecto | Aplicaciones/sbr_app/views.py:565-592 | with no range given the report shows January through the current month |

## Left out

- Django plumbing: ORM queries, `get_object_or_404`, messages, redirects, rendering, file uploads and
  `transaction.atomic`; the sequence operations stand in for the queries, and a 404 is a `Failure`.
- Permissions: `login_required`, and the vendor-ownership filters in the detail view, the toggle and both reports;
  the model is the superuser's view.
- The percentage penalty `mora_porcentaje`: it is stored but never read by the code.
- Floating point: `float(request.POST['monto'])` and `Decimal(monto)` of that float; amounts arrive as cents.
- The `quantize(ROUND_HALF_UP)` of the sale figures: the form already holds cents.
- The 28-digit `Decimal` context: the division at `round(saldo / n, 2)` is taken as exact.
- Parsing of date strings (`strptime`, `split('-')` into integers): the caller passes the parsed outcome,
  a missing or unparsable start date, or a (year, month) pair; the year-9999 upper limit of `date` is not modelled.
- `Amortizacion.GenerarTablaAmortizacion`: `crear_venta_view` never passes a start date, so the sale always uses the contract date.
- `Pagos.NotaSaldoAFavor`: the surplus is rendered with two decimals; Python prints the `Decimal` as it stands,
  whose exponent depends on how the amount was entered.
- The `or 0` fallbacks of `total_a_pagar` and `saldo_pendiente`: the model's fields are never missing.
- The display order of the monthly report's lists (sorted by amount) and month labels of the general report.
- Client records, the contract PDF/Word rendering, `link_callback`, the logo lookup and both PDF report views.
- Contract and installment ids: contracts are passed as values, and installments are addressed by their position.
- Concurrent payments on one contract.
- The `pag_web` site, the URL configuration and the admin registrations.

=== FILE: amortizacion.dfy ===
/**
 The schedule generator (`generar_tabla_amortizacion`): the contract's financed
 balance is split into `numero_cuotas` flat installments, one per month from the
 base date, the last one absorbing whatever rounding left over.
 */
module Amortizacion {
  import opened Wrappers
  import opened Calendar
  import opened Models

  /** What became of the optional start-date string: absent (or empty), not a
      `%Y-%m-%d` date, or the date it names. Parsing itself is not modelled. */
  datatype FechaInicio = SinFecha | FechaInvalida | FechaDada(fecha: Fecha)

  /** `round(a / n, 2)` on cents: the nearest whole cent, ties to the even one
      (the default `ROUND_HALF_EVEN` context of `Decimal`). */
  function RedondearMitadPar(a: int, n: int): (r: int)
    requires n > 0
    ensures -n <= 2 * (n * r - a) <= n
    ensures (2 * (n * r - a) == n || 2 * (n * r - a) == -n) ==> r % 2 == 0
  {
    var q := a / n;
    var resto := a % n;
    assert a == n * q + resto;
    assert n * (q + 1) == n * q + n;
    if 2 * resto < n then q
    else if 2 * resto > n then q + 1
    else if q % 2 == 0 then q
    else q + 1
  }

  /** Two cents meeting those conditions are the same cent: the rounding above is the unique
      nearest cent with ties to even. */
  lemma RedondeoUnico(a: int, n: int, s: int)
    requires n > 0
    requires -n <= 2 * (n * s - a) <= n
    requires (2 * (n * s - a) == n || 2 * (n * s - a) == -n) ==> s % 2 == 0
    ensures s == RedondearMitadPar(a, n)
  {
    var r := RedondearMitadPar(a, n);
    MulDiff(n, s, r);
    if s > r {
      MulAtLeast(n, s - r);
      MulCancel(n, s - r);
    } else if s < r {
      MulAtLeast(n, r - s);
      MulDiff(n, r, s);
      MulCancel(n, r - s);
    }
  }

  lemma MulDiff(n: int, s: int, r: int)
    ensures n * s - n * r == n * (s - r)
  {
  }

  lemma MulAtLeast(n: int, d: int)
    requires n > 0 && d >= 1
    ensures n * d >= n
  {
  }

  lemma MulCancel(n: int, d: int)
    requires n > 0 && d >= 1 && n * d <= n
    ensures d == 1
  {
  }

  /** The first due date: the given start date, or the contract date when the string is
      missing or unparsable. */
  function FechaBase(inicio: FechaInicio, fechaContrato: Fecha): Fecha {
    match inicio
    case FechaDada(d) => d
    case _ => fechaContrato
  }

  /** The principal the loop assigns to installment `j`, when `saldo` is what remained at `i`. */
  function CapitalEn(j: int, i: int, n: int, saldo: Centavos, base: Centavos): Centavos {
    if j < n then base else saldo - (n - i) * base
  }

  lemma CapitalPaso(j: int, i: int, n: int, saldo: Centavos, base: Centavos)
    requires i < n
    ensures CapitalEn(j, i + 1, n, saldo - base, base) == CapitalEn(j, i, n, saldo, base)
  {
    assert (n - i) * base == (n - (i + 1)) * base + base;
  }

  /** The due date the loop gives installment `j`: the base date, then `j - 1` months on. */
  function Vence(fechaBase: Fecha, j: int): Fecha
    requires j >= 1
  {
    if j == 1 then fechaBase else AddMonths(fechaBase, j - 1)
  }

  /** Installment 1's date is also `fecha_base + relativedelta(months=0)`. */
  lemma VenceMesesDespues(fechaBase: Fecha, j: int)
    requires j >= 1
    ensures Vence(fechaBase, j) == AddMonths(fechaBase, j - 1)
  {
    AddZeroMonths(fechaBase);
  }

  /** The installments `i .. n` of the loop, `saldo` being what is still to be scheduled. */
  function CuotasDesde(i: int, n: int, saldo: Centavos, base: Centavos, fechaBase: Fecha): (r: seq<Cuota>)
    requires 1 <= i <= n + 1
    ensures |r| == n + 1 - i
    decreases n + 1 - i
  {
    if i > n then []
    else
      var capital := if i == n then saldo else base;
      [CuotaNueva(i, Vence(fechaBase, i), capital)] + CuotasDesde(i + 1, n, saldo - capital, base, fechaBase)
  }

  lemma CuotasDesdeCabeza(i: int, n: int, saldo: Centavos, base: Centavos, fechaBase: Fecha)
    requires 1 <= i <= n
    ensures CuotasDesde(i, n, saldo, base, fechaBase)[0]
         == CuotaNueva(i, Vence(fechaBase, i), CapitalEn(i, i, n, saldo, base))
  {
  }

  lemma CuotasDesdeCola(i: int, n: int, saldo: Centavos, base: Centavos, fechaBase: Fecha)
    requires 1 <= i < n
    ensures CuotasDesde(i, n, saldo, base, fechaBase)[1..] == CuotasDesde(i + 1, n, saldo - base, base, fechaBase)
  {
  }

  /** Installment `j` of the loop, at position `j - i` of the run started at `i`, is due
      `j - 1` months after the base date and carries the base amount, or the remainder
      when it is the last. */
  lemma {:induction false} CuotaDesde(i: int, n: int, saldo: Centavos, base: Centavos, fechaBase: Fecha, j: int)
    requires 1 <= i <= j <= n
    ensures CuotasDesde(i, n, saldo, base, fechaBase)[j - i]
         == CuotaNueva(j, Vence(fechaBase, j), CapitalEn(j, i, n, saldo, base))
    decreases j - i
  {
    if j == i {
      CuotasDesdeCabeza(i, n, saldo, base, fechaBase);
    } else {
      var resto := CuotasDesde(i + 1, n, saldo - base, base, fechaBase);
      CuotasDesdeCola(i, n, saldo, base, fechaBase);
      assert CuotasDesde(i, n, saldo, base, fechaBase)[j - i] == resto[j - (i + 1)];
      CuotaDesde(i + 1, n, saldo - base, base, fechaBase, j);
      CapitalPaso(j, i, n, saldo, base);
    }
  }

  lemma CuotasDesdeForma(i: int, n: int, saldo: Centavos, base: Centavos, fechaBase: Fecha)
    requires 1 <= i <= n
    ensures var r := CuotasDesde(i, n, saldo, base, fechaBase);
      forall k :: 0 <= k < |r| ==>
        r[k] == CuotaNueva(i + k, Vence(fechaBase, i + k), CapitalEn(i + k, i, n, saldo, base))
  {
    forall k | 0 <= k <= n - i
      ensures CuotasDesde(i, n, saldo, base, fechaBase)[k]
           == CuotaNueva(i + k, Vence(fechaBase, i + k), CapitalEn(i + k, i, n, saldo, base))
    {
      CuotaDesde(i, n, saldo, base, fechaBase, i + k);
    }
  }

  /** The loop's running balance makes the principals add up to what was left to schedule. */
  lemma {:induction false} CuotasDesdeSuma(i: int, n: int, saldo: Centavos, base: Centavos, fechaBase: Fecha)
    requires 1 <= i <= n
    ensures SumaCapital(CuotasDesde(i, n, saldo, base, fechaBase)) == saldo
    decreases n + 1 - i
  {
    var r := CuotasDesde(i, n, saldo, base, fechaBase);
    var capital := if i == n then saldo else base;
    assert r[1..] == CuotasDesde(i + 1, n, saldo - capital, base, fechaBase);
    if i < n {
      CuotasDesdeSuma(i + 1, n, saldo - capital, base, fechaBase);
    }
  }

  /** The schedule as a closed form: installment `i` (from 0) is due `i` months after the
      base date and carries the base amount, except the last, which carries the rest. */
  predicate EsTabla(cs: seq<Cuota>, saldo: Centavos, n: int, fechaBase: Fecha)
    requires n > 0
  {
    var base := RedondearMitadPar(saldo, n);
    && |cs| == n
    && forall i :: 0 <= i < n ==>
         cs[i] == CuotaNueva(i + 1, Vence(fechaBase, i + 1), CapitalEn(i + 1, 1, n, saldo, base))
  }

  /** `generar_tabla_amortizacion`: deletes the contract's installments and, when the term
      is positive, creates the new schedule; the boolean is the function's return value. */
  function GenerarTablaAmortizacion(k: Contrato, inicio: FechaInicio): (r: (Contrato, bool))
    ensures r.0 == k.(cuotas := r.0.cuotas)
    ensures r.1 <==> k.numeroCuotas > 0
    ensures !r.1 ==> r.0.cuotas == []
    ensures r.1 ==> EsTabla(r.0.cuotas, k.saldoAFinanciar, k.numeroCuotas, FechaBase(inicio, k.fechaContrato))
    ensures SumaCapital(r.0.cuotas) == (if r.1 then k.saldoAFinanciar else 0)
  {
    var plazo := k.numeroCuotas;
    if plazo <= 0 then (k.(cuotas := []), false)
    else
      var base := RedondearMitadPar(k.saldoAFinanciar, plazo);
      var fb := FechaBase(inicio, k.fechaContrato);
      var cs := CuotasDesde(1, plazo, k.saldoAFinanciar, base, fb);
      CuotasDesdeForma(1, plazo, k.saldoAFinanciar, base, fb);
      CuotasDesdeSuma(1, plazo, k.saldoAFinanciar, base, fb);
      (k.(cuotas := cs), true)
  }

  // ---------------------------------------------------------------------
  // Properties of a generated schedule

  /** The closed form sums to the financed balance, whatever the rounding produced. */
  lemma {:induction false} TablaConcilia(cs: seq<Cuota>, saldo: Centavos, n: int, fechaBase: Fecha)
    requires n > 0 && EsTabla(cs, saldo, n, fechaBase)
    ensures SumaCapital(cs) == saldo
  {
    var base := RedondearMitadPar(saldo, n);
    CapitalesSuman(cs, base, saldo - (n - 1) * base);
  }

  lemma {:induction false} CapitalesSuman(cs: seq<Cuota>, base: Centavos, ultimo: Centavos)
    requires |cs| > 0
    requires forall i :: 0 <= i < |cs| - 1 ==> cs[i].valorCapital == base
    requires cs[|cs| - 1].valorCapital == ultimo
    ensures SumaCapital(cs) == (|cs| - 1) * base + ultimo
  {
    if |cs| > 1 {
      assert forall i :: 0 <= i < |cs[1..]| ==> cs[1..][i] == cs[i + 1];
      CapitalesSuman(cs[1..], base, ultimo);
    }
  }

  /** A generated schedule is listed by number, numbered 1..N, with strictly later due dates. */
  lemma TablaOrdenada(cs: seq<Cuota>, saldo: Centavos, n: int, fechaBase: Fecha)
    requires n > 0 && EsTabla(cs, saldo, n, fechaBase)
    ensures OrdenadasPorNumero(cs)
    ensures forall i :: 0 <= i < n ==> cs[i].numero == i + 1
    ensures forall i, j :: 0 <= i < j < n ==> Before(cs[i].fechaVencimiento, cs[j].fechaVencimiento)
    ensures cs[0].fechaVencimiento == fechaBase
  {
    forall i, j | 0 <= i < j < n
      ensures Before(cs[i].fechaVencimiento, cs[j].fechaVencimiento)
    {
      VenceMesesDespues(fechaBase, i + 1);
      VenceMesesDespues(fechaBase, j + 1);
      AddMonthsStrictlyIncreasing(fechaBase, i, j);
    }
  }

  /** A fresh schedule owes nothing yet, has no PAGADO installment and nothing overdue. */
  lemma TablaNueva(cs: seq<Cuota>, saldo: Centavos, n: int, fechaBase: Fecha)
    requires n > 0 && EsTabla(cs, saldo, n, fechaBase)
    ensures Consistentes(cs)
    ensures forall i :: 0 <= i < n ==> cs[i].estado == Pendiente && cs[i].valorPagado == 0
    ensures forall i :: 0 <= i < n ==> !cs[i].moraExenta && cs[i].valorMora == 0
    ensures SumaPagado(cs) == 0
  {
    SinPagos(cs);
  }

  lemma {:induction false} SinPagos(cs: seq<Cuota>)
    requires forall i :: 0 <= i < |cs| ==> cs[i].valorPagado == 0
    ensures SumaPagado(cs) == 0
  {
    if |cs| > 0 {
      assert forall i :: 0 <= i < |cs[1..]| ==> cs[1..][i] == cs[i + 1];
      SinPagos(cs[1..]);
    }
  }

  // ---------------------------------------------------------------------
  // Worked instances

  /** 1000.00 over three installments: 333.33, 333.33 and 333.34. */
  lemma TresCuotas(k: Contrato)
    requires k.saldoAFinanciar == 100000 && k.numeroCuotas == 3
    ensures var cs := GenerarTablaAmortizacion(k, SinFecha).0.cuotas;
      |cs| == 3 && cs[0].valorCapital == 33333 && cs[1].valorCapital == 33333 && cs[2].valorCapital == 33334
  {
    assert RedondearMitadPar(100000, 3) == 33333;
  }

  /** Ties go to the even cent: 0.05 over two gives 0.02 (half-up would give 0.03), while
      0.15 over two gives 0.08. */
  lemma MitadPar()
    ensures RedondearMitadPar(5, 2) == 2
    ensures RedondearMitadPar(15, 2) == 8
    ensures RedondearMitadPar(-5, 2) == -2
  {
  }

  /** 1.00 over 150 installments: each of the first 149 carries 0.01, so the last one is -0.49. */
  lemma UltimaNegativa(k: Contrato)
    requires k.saldoAFinanciar == 100 && k.numeroCuotas == 150
    ensures var cs := GenerarTablaAmortizacion(k, SinFecha).0.cuotas;
      |cs| == 150 && cs[0].valorCapital == 1 && cs[149].valorCapital == -49
  {
    assert RedondearMitadPar(100, 150) == 1;
  }
}

=== FILE: calendar.dfy ===
/**
 Calendar dates as Python's `datetime.date` sees them: proleptic Gregorian,
 compared field by field, subtracted through the day ordinal, and advanced by
 whole months the way `dateutil.relativedelta(months=k)` does (the day is
 clamped to the last day of the target month).
 */
module Calendar {

  datatype Date = Date(year: int, month: int, day: int)

  predicate IsLeap(y: int) {
    y % 4 == 0 && (y % 100 != 0 || y % 400 == 0)
  }

  function DaysInMonth(y: int, m: int): (r: int)
    requires 1 <= m <= 12
    ensures 28 <= r <= 31
    ensures r == 29 <==> m == 2 && IsLeap(y)
  {
    if m == 2 then (if IsLeap(y) then 29 else 28)
    else if m == 4 || m == 6 || m == 9 || m == 11 then 30
    else 31
  }

  predicate Valid(d: Date) {
    1 <= d.year && 1 <= d.month <= 12 && 1 <= d.day <= DaysInMonth(d.year, d.month)
  }

  /** The dates a `datetime.date` object can hold (the upper year bound is not modelled). */
  type Fecha = d: Date | Valid(d) witness Date(1, 1, 1)

  /** `a < b` on dates: lexicographic on (year, month, day). */
  predicate Before(a: Date, b: Date) {
    a.year < b.year
    || (a.year == b.year && (a.month < b.month || (a.month == b.month && a.day < b.day)))
  }

  /** `a <= b` on dates. */
  predicate NotAfter(a: Date, b: Date) {
    a == b || Before(a, b)
  }

  /** Python's `_days_before_year`. */
  function DaysBeforeYear(y: int): int
    requires 1 <= y
  {
    var z := y - 1;
    365 * z + z / 4 - z / 100 + z / 400
  }

  /** Python's `_days_before_month`. */
  function DaysBeforeMonth(y: int, m: int): int
    requires 1 <= m <= 12
  {
    [0, 31, 59, 90, 120, 151, 181, 212, 243, 273, 304, 334][m - 1]
    + (if m > 2 && IsLeap(y) then 1 else 0)
  }

  /** `date.toordinal()`: 1 for 0001-01-01. */
  function Ordinal(d: Fecha): int {
    DaysBeforeYear(d.year) + DaysBeforeMonth(d.year, d.month) + d.day
  }

  /** `(b - a).days`. */
  function DaysBetween(a: Fecha, b: Fecha): int {
    Ordinal(b) - Ordinal(a)
  }

  /** Months counted from year 0, so that consecutive months differ by one. */
  function MonthIndex(d: Date): int {
    d.year * 12 + (d.month - 1)
  }

  /** `d + relativedelta(months=k)`: shift the month, keep the day unless the target month is shorter. */
  function AddMonths(d: Fecha, k: nat): (r: Fecha)
    ensures MonthIndex(r) == MonthIndex(d) + k
    ensures r.day <= d.day
    ensures d.day <= DaysInMonth(r.year, r.month) ==> r.day == d.day
    ensures d.day > DaysInMonth(r.year, r.month) ==> r.day == DaysInMonth(r.year, r.month)
  {
    var total := MonthIndex(d) + k;
    var y := total / 12;
    var m := total % 12 + 1;
    var last := DaysInMonth(y, m);
    Date(y, m, if d.day <= last then d.day else last)
  }

  // ---------------------------------------------------------------------
  // Month arithmetic

  lemma AddZeroMonths(d: Fecha)
    ensures AddMonths(d, 0) == d
  {
    var r := AddMonths(d, 0);
    assert r.year * 12 + (r.month - 1) == d.year * 12 + (d.month - 1);
    assert r.year == d.year && r.month == d.month;
  }

  /** A strictly later month index means a strictly later date, whatever the days. */
  lemma LaterMonthIsBefore(a: Date, b: Date)
    requires 1 <= a.month <= 12 && 1 <= b.month <= 12
    requires MonthIndex(a) < MonthIndex(b)
    ensures Before(a, b)
  {
  }

  /** Stepping further from the same base always lands strictly later. */
  lemma AddMonthsStrictlyIncreasing(d: Fecha, i: nat, j: nat)
    requires i < j
    ensures Before(AddMonths(d, i), AddMonths(d, j))
  {
    LaterMonthIsBefore(AddMonths(d, i), AddMonths(d, j));
  }

  // ---------------------------------------------------------------------
  // The ordinal agrees with the date order

  function DaysInYear(y: int): int {
    if IsLeap(y) then 366 else 365
  }

  lemma DivStep4(z: int)
    requires 0 <= z
    ensures (z + 1) / 4 - z / 4 == (if (z + 1) % 4 == 0 then 1 else 0)
  {
  }

  lemma DivStep100(z: int)
    requires 0 <= z
    ensures (z + 1) / 100 - z / 100 == (if (z + 1) % 100 == 0 then 1 else 0)
  {
  }

  lemma DivStep400(z: int)
    requires 0 <= z
    ensures (z + 1) / 400 - z / 400 == (if (z + 1) % 400 == 0 then 1 else 0)
  {
  }

  lemma MultipleOf400(x: int)
    requires x % 400 == 0
    ensures x % 100 == 0
  {
    var q := x / 400;
    assert x == 100 * (4 * q);
  }

  lemma MultipleOf100(x: int)
    requires x % 100 == 0
    ensures x % 4 == 0
  {
    var q := x / 100;
    assert x == 4 * (25 * q);
  }

  lemma YearStep(y: int)
    requires 1 <= y
    ensures DaysBeforeYear(y + 1) == DaysBeforeYear(y) + DaysInYear(y)
  {
    var z := y - 1;
    DivStep4(z);
    DivStep100(z);
    DivStep400(z);
    if y % 400 == 0 {
      MultipleOf400(y);
    }
    if y % 100 == 0 {
      MultipleOf100(y);
    }
    assert DaysBeforeYear(y) == 365 * z + z / 4 - z / 100 + z / 400;
    assert DaysBeforeYear(y + 1) == 365 * z + 365 + (z + 1) / 4 - (z + 1) / 100 + (z + 1) / 400;
  }

  lemma {:induction false} YearsApart(y1: int, y2: int)
    requires 1 <= y1 < y2
    ensures DaysBeforeYear(y2) >= DaysBeforeYear(y1) + DaysInYear(y1)
    decreases y2 - y1
  {
    YearStep(y1);
    if y1 + 1 < y2 {
      YearsApart(y1 + 1, y2);
    }
  }

  /** The day of the year lies in 1 .. DaysInYear. */
  lemma DayOfYearBounds(d: Fecha)
    ensures 1 <= DaysBeforeMonth(d.year, d.month) + d.day <= DaysInYear(d.year)
  {
  }

  lemma MonthsApart(y: int, m1: int, m2: int)
    requires 1 <= m1 < m2 <= 12
    ensures DaysBeforeMonth(y, m2) >= DaysBeforeMonth(y, m1) + DaysInMonth(y, m1)
  {
  }

  /** Python's date comparison and the day count agree: `a < b` iff `(b - a).days >= 1`. */
  lemma BeforeIffLater(a: Fecha, b: Fecha)
    ensures Before(a, b) <==> DaysBetween(a, b) >= 1
  {
    if Before(a, b) {
      BeforeMeansLater(a, b);
    } else if a != b {
      BeforeMeansLater(b, a);
    }
  }

  lemma BeforeMeansLater(a: Fecha, b: Fecha)
    requires Before(a, b)
    ensures DaysBetween(a, b) >= 1
  {
    DayOfYearBounds(a);
    DayOfYearBounds(b);
    if a.year < b.year {
      YearsApart(a.year, b.year);
    } else if a.month < b.month {
      MonthsApart(a.year, a.month, b.month);
    }
  }
}

=== FILE: ciclo.dfy ===
/**
 The contract lifecycle as the detail page drives it: the balance and the
 `puede_cerrar` flag, closing (CERRADO), cancelling (CANCELADO) and refunding
 (DEVOLUCION) a contract, and the per-installment penalty exemption toggle.
 `esPost` tells a form submission from a plain page load; "today" is a parameter.
 */
module Ciclo {
  import opened Wrappers
  import opened Calendar
  import opened Models
  import opened Moras
  import opened Pagos

  datatype Rechazo =
    | ConDeuda(saldo: Centavos)   // closing a contract that still owes money
    | CuotaInexistente            // the 404 of an unknown installment

  // ---------------------------------------------------------------------
  // Detail page

  /** `sum(c.valor_mora for c in cuotas_vencidas)`. */
  function MoraVencida(cs: seq<Cuota>): Centavos {
    if |cs| == 0 then 0 else (if cs[0].estado == Vencido then cs[0].valorMora else 0) + MoraVencida(cs[1..])
  }

  predicate PorCobrarSinVencer(c: Cuota) {
    c.estado == Pendiente || c.estado == Parcial
  }

  /** `cuotas.filter(estado__in=['PENDIENTE', 'PARCIAL']).first()`, as a position. */
  function Proxima(cs: seq<Cuota>): (r: Option<nat>)
    ensures r.Some? ==> r.value < |cs| && PorCobrarSinVencer(cs[r.value])
    ensures r.Some? ==> forall i :: 0 <= i < r.value ==> !PorCobrarSinVencer(cs[i])
    ensures r.None? ==> forall i :: 0 <= i < |cs| ==> !PorCobrarSinVencer(cs[i])
  {
    if |cs| == 0 then None
    else if PorCobrarSinVencer(cs[0]) then Some(0)
    else
      var r := Proxima(cs[1..]);
      assert forall i :: 0 < i < |cs| ==> cs[i] == cs[1..][i - 1];
      if r.Some? then Some(r.value + 1) else None
  }

  /** The close rule of the detail page: nothing owed on balance and the contract ACTIVO. */
  predicate PuedeCerrar(k: Contrato) {
    SumaFalta(k.cuotas) <= 0 && k.estado == Activo
  }

  datatype Detalle = Detalle(
    contrato: Contrato,
    totalMora: Centavos,
    hayVencidas: bool,
    proxima: Option<nat>,
    saldoPendienteTotal: Centavos,
    puedeCerrar: bool)

  /** `detalle_contrato_view`: refresh delinquency first, then read the figures off the
      refreshed installments. `contrato` is the stored record after the refresh; the page's
      own copy of the row was read before it, so its `esta_en_mora` may be the older value. */
  function VerDetalle(p: Politica, hoy: Fecha, k: Contrato): (r: Detalle)
    ensures r.contrato == ActualizarMoras(p, hoy, k)
    ensures r.hayVencidas == r.contrato.estaEnMora
    ensures r.hayVencidas <==> exists i :: 0 <= i < |r.contrato.cuotas| && r.contrato.cuotas[i].estado == Vencido
    ensures r.totalMora == MoraVencida(r.contrato.cuotas)
    ensures r.proxima == Proxima(r.contrato.cuotas)
    ensures r.saldoPendienteTotal == SumaFalta(r.contrato.cuotas)
    ensures r.puedeCerrar <==> r.saldoPendienteTotal <= 0 && r.contrato.estado == Activo
    ensures r.puedeCerrar ==> Cerrar(r.contrato, true) == Success(r.contrato.(estado := Cerrado))
  {
    var k' := ActualizarMoras(p, hoy, k);
    Detalle(k', MoraVencida(k'.cuotas), HayVencidas(k'.cuotas), Proxima(k'.cuotas),
            SumaFalta(k'.cuotas), PuedeCerrar(k'))
  }

  // ---------------------------------------------------------------------
  // Transitions

  /** `cerrar_contrato_view`: a positive balance refuses the close on any request; otherwise
      a submission sets CERRADO, whatever the state was. */
  function Cerrar(k: Contrato, esPost: bool): (r: Result<Contrato, Rechazo>)
    ensures r.Failure? <==> SumaFalta(k.cuotas) > 0
    ensures r.Failure? ==> r.error == ConDeuda(SumaFalta(k.cuotas))
    ensures r.Success? ==> r.value == k.(estado := r.value.estado)
    ensures r.Success? ==> r.value.estado == (if esPost then Cerrado else k.estado)
  {
    var saldo := SumaFalta(k.cuotas);
    if saldo > 0 then Failure(ConDeuda(saldo))
    else if esPost then Success(k.(estado := Cerrado))
    else Success(k)
  }

  /** The view's gate is stricter than the action's: whatever the page offers closing for
      closes, but the action also closes contracts that are not ACTIVO. */
  lemma PuedeCerrarBastaParaCerrar(k: Contrato)
    ensures PuedeCerrar(k) ==> Cerrar(k, true) == Success(k.(estado := Cerrado))
    ensures Cerrar(k, true).Success? <==> (PuedeCerrar(k) || (SumaFalta(k.cuotas) <= 0 && k.estado != Activo))
  {
  }

  /** The shared part of cancel and refund: new state and date, lot released. */
  function Liberar(k: Contrato, lote: Lote, hoy: Fecha, estado: EstadoContrato): (r: (Contrato, Lote))
    ensures r.0 == k.(estado := estado, fechaCancelacion := Some(hoy))
    ensures r.1 == lote.(estado := Disponible)
  {
    (k.(estado := estado, fechaCancelacion := Some(hoy)), lote.(estado := Disponible))
  }

  /** `cancelar_contrato_view`. */
  function Cancelar(k: Contrato, lote: Lote, hoy: Fecha, esPost: bool): (r: (Contrato, Lote))
    ensures esPost ==> r.0 == k.(estado := Cancelado, fechaCancelacion := Some(hoy))
    ensures esPost ==> r.1 == lote.(estado := Disponible)
    ensures !esPost ==> r == (k, lote)
  {
    if esPost then Liberar(k, lote, hoy, Cancelado) else (k, lote)
  }

  /** `devolucion_contrato_view`: also reports the amount to hand back, every payment received. */
  function Devolver(k: Contrato, lote: Lote, hoy: Fecha, esPost: bool): (r: (Contrato, Lote, Option<Centavos>))
    ensures esPost ==> r.0 == k.(estado := Devolucion, fechaCancelacion := Some(hoy))
    ensures esPost ==> r.1 == lote.(estado := Disponible)
    ensures esPost ==> r.2 == Some(SumaMontos(k.pagos))
    ensures !esPost ==> r == (k, lote, None)
  {
    if esPost then
      var (k', l') := Liberar(k, lote, hoy, Devolucion);
      (k', l', Some(SumaMontos(k.pagos)))
    else (k, lote, None)
  }

  /** Cancel and refund release the lot whatever the contract's prior state, and afterwards
      the contract no longer offers the close button. */
  lemma CancelarLiberaSiempre(k: Contrato, lote: Lote, hoy: Fecha)
    ensures var (c, l) := Cancelar(k, lote, hoy, true); l.estado == Disponible && !PuedeCerrar(c)
    ensures var (d, l, _) := Devolver(k, lote, hoy, true); l.estado == Disponible && !PuedeCerrar(d)
  {
  }

  // ---------------------------------------------------------------------
  // Exemption toggle

  /** `toggle_mora_cuota` for installment `i` of the contract: a submission flips its exemption
      and refreshes delinquency; an unknown installment is a 404. */
  function AlternarExencion(p: Politica, hoy: Fecha, k: Contrato, i: int, esPost: bool): (r: Result<Contrato, Rechazo>)
    ensures r.Failure? <==> !(0 <= i < |k.cuotas|)
    ensures r.Failure? ==> r.error == CuotaInexistente
    ensures r.Success? && !esPost ==> r.value == k
    ensures r.Success? && esPost ==>
      && |r.value.cuotas| == |k.cuotas|
      && r.value.cuotas[i].moraExenta == !k.cuotas[i].moraExenta
      && (forall j :: 0 <= j < |k.cuotas| && j != i ==> r.value.cuotas[j].moraExenta == k.cuotas[j].moraExenta)
      && (forall j :: 0 <= j < |k.cuotas| ==> r.value.cuotas[j].valorPagado == k.cuotas[j].valorPagado)
      && r.value == k.(cuotas := r.value.cuotas, estaEnMora := r.value.estaEnMora)
  {
    if !(0 <= i < |k.cuotas|) then Failure(CuotaInexistente)
    else if !esPost then Success(k)
    else
      var flipped := k.(cuotas := k.cuotas[i := k.cuotas[i].(moraExenta := !k.cuotas[i].moraExenta)]);
      MorasConservanPagos(p, hoy, flipped);
      Success(ActualizarMoras(p, hoy, flipped))
  }

  /** Toggling the same installment twice on one day restores its flag and leaves the
      contract exactly as one delinquency refresh would. */
  lemma AlternarDosVeces(p: Politica, hoy: Fecha, k: Contrato, i: int)
    requires 0 <= i < |k.cuotas|
    ensures var r1 := AlternarExencion(p, hoy, k, i, true).value;
      AlternarExencion(p, hoy, r1, i, true) == Success(ActualizarMoras(p, hoy, k))
  {
    var f1 := k.(cuotas := k.cuotas[i := k.cuotas[i].(moraExenta := !k.cuotas[i].moraExenta)]);
    var r1 := ActualizarMoras(p, hoy, f1);
    var f2 := r1.(cuotas := r1.cuotas[i := r1.cuotas[i].(moraExenta := !r1.cuotas[i].moraExenta)]);
    var r2 := ActualizarMoras(p, hoy, f2);
    var r := ActualizarMoras(p, hoy, k);
    forall j | 0 <= j < |k.cuotas|
      ensures r2.cuotas[j] == r.cuotas[j]
    {
      if Afectada(k.cuotas[j], hoy) {
        assert Afectada(f1.cuotas[j], hoy) && Afectada(f2.cuotas[j], hoy);
        assert f2.cuotas[j].moraExenta == k.cuotas[j].moraExenta;
      } else {
        assert !Afectada(f1.cuotas[j], hoy);
      }
    }
    assert r2.cuotas == r.cuotas;
  }

  /** Exempting an overdue installment wipes its penalty but keeps it VENCIDO. */
  lemma EximirVencida(p: Politica, hoy: Fecha, k: Contrato, i: int)
    requires 0 <= i < |k.cuotas| && Afectada(k.cuotas[i], hoy) && !k.cuotas[i].moraExenta
    ensures var r := AlternarExencion(p, hoy, k, i, true).value;
      r.cuotas[i].moraExenta && r.cuotas[i].estado == Vencido && r.cuotas[i].valorMora == 0 && r.estaEnMora
  {
  }

  // ---------------------------------------------------------------------
  // Payment and close

  lemma {:induction false} TodasPagadasSinSaldo(cs: seq<Cuota>)
    requires Consistentes(cs) && forall i :: 0 <= i < |cs| ==> cs[i].estado == Pagado
    ensures SumaFalta(cs) <= 0
  {
    NadaPendienteSumaNoPositiva(cs);
  }

  /** With money left over every installment of the allocation ends paid and settled. */
  lemma SobranteDejaTodoPagado(cs: seq<Cuota>, monto: Centavos, hoy: Fecha)
    requires Consistentes(cs)
    requires monto > DeudaEnCobro(cs)
    ensures forall i :: 0 <= i < |cs| ==>
      Repartir(cs, monto, hoy).0[i].estado == Pagado && Saldada(Repartir(cs, monto, hoy).0[i])
  {
    var r := Repartir(cs, monto, hoy).0;
    SobranteSoloSiTodoSaldado(cs, monto, hoy);
    forall i | 0 <= i < |r|
      ensures r[i].estado == Pagado && Saldada(r[i])
    {
      assert Abono(cs[i], r[i]);
    }
  }

  /** Refreshing surcharges leaves a fully paid list of installments as it is. */
  lemma PagadasNoSeAfectan(p: Politica, hoy: Fecha, k: Contrato)
    requires forall i :: 0 <= i < |k.cuotas| ==> k.cuotas[i].estado == Pagado
    ensures ActualizarMoras(p, hoy, k).cuotas == k.cuotas
  {
    var r := ActualizarMoras(p, hoy, k);
    assert forall i :: 0 <= i < |k.cuotas| ==> !Afectada(k.cuotas[i], hoy);
  }

  /** A payment that leaves money over settles the contract: afterwards nothing is owed on
      balance and the contract can be closed. */
  lemma PagoConSobranteCierra(p: Politica, hoy: Fecha, k: Contrato, monto: Centavos, metodo: MetodoPago,
                              evidencia: Option<string>, usuario: Option<nat>)
    requires Consistentes(k.cuotas)
    requires monto > DeudaEnCobro(k.cuotas)
    ensures var r := RegistrarPago(p, hoy, k, monto, metodo, evidencia, usuario).0;
      SumaFalta(r.cuotas) <= 0 && Cerrar(r, true) == Success(r.(estado := Cerrado))
  {
    var cs := Repartir(k.cuotas, monto, hoy).0;
    SobranteDejaTodoPagado(k.cuotas, monto, hoy);
    var r := RegistrarPago(p, hoy, k, monto, metodo, evidencia, usuario).0;
    var base := r.(cuotas := cs, estaEnMora := false);
    assert base.cuotas == cs;
    assert forall i :: 0 <= i < |cs| ==> cs[i].estado == Pagado && Saldada(cs[i]);
    assert r.cuotas == ActualizarMoras(p, hoy, base).cuotas;
    PagadasNoSeAfectan(p, hoy, base);
    TodasPagadasSinSaldo(r.cuotas);
  }

  /** A payment recorded before a refund is handed back with it: the refund grows by
      exactly the payment's amount. */
  lemma PagoSumaALaDevolucion(p: Politica, hoy: Fecha, k: Contrato, monto: Centavos, metodo: MetodoPago,
                              evidencia: Option<string>, usuario: Option<nat>, lote: Lote, dia: Fecha)
    ensures var k' := RegistrarPago(p, hoy, k, monto, metodo, evidencia, usuario).0;
      Devolver(k', lote, dia, true).2 == Some(SumaMontos(k.pagos) + monto)
  {
    var (k', pago) := RegistrarPago(p, hoy, k, monto, metodo, evidencia, usuario);
    SumaMontosAppend(k.pagos, pago);
  }
}

=== FILE: models.dfy ===
/**
 The ledger's records: lots, contracts, installments (cuotas), payments and the
 delinquency configuration, with the defaults a freshly created row carries.
 Money is held in integer cents, which is exactly what the two-decimal
 `DecimalField`s store.
 */
module Models {
  import opened Wrappers
  import opened Calendar

  /** An amount of money in cents (a `DecimalField(decimal_places=2)` times 100). */
  type Centavos = int

  /** The one-cent tolerance, `Decimal('0.01')`, below which an amount counts as settled. */
  const TOLERANCIA: Centavos := 1

  // ---------------------------------------------------------------------
  // State enumerations and the codes stored for them

  datatype EstadoCuota = Pendiente | Parcial | Pagado | Vencido
  datatype EstadoContrato = Activo | Cerrado | Anulado | Cancelado | Devolucion
  datatype EstadoLote = Disponible | Reservado | Vendido
  datatype MetodoPago = Efectivo | Transferencia

  function CodigoCuota(e: EstadoCuota): string {
    match e
    case Pendiente => "PENDIENTE"
    case Parcial => "PARCIAL"
    case Pagado => "PAGADO"
    case Vencido => "VENCIDO"
  }

  /** Reads a stored installment state; any other string is not one of the choices. */
  function LeerEstadoCuota(s: string): (r: Option<EstadoCuota>)
    ensures r.Some? ==> CodigoCuota(r.value) == s
    ensures r.None? ==> forall e: EstadoCuota :: CodigoCuota(e) != s
  {
    if s == "PENDIENTE" then Some(Pendiente)
    else if s == "PARCIAL" then Some(Parcial)
    else if s == "PAGADO" then Some(Pagado)
    else if s == "VENCIDO" then Some(Vencido)
    else None
  }

  lemma EstadoCuotaRoundTrip(e: EstadoCuota)
    ensures LeerEstadoCuota(CodigoCuota(e)) == Some(e)
  {
  }

  function CodigoContrato(e: EstadoContrato): string {
    match e
    case Activo => "ACTIVO"
    case Cerrado => "CERRADO"
    case Anulado => "ANULADO"
    case Cancelado => "CANCELADO"
    case Devolucion => "DEVOLUCION"
  }

  function LeerEstadoContrato(s: string): (r: Option<EstadoContrato>)
    ensures r.Some? ==> CodigoContrato(r.value) == s
    ensures r.None? ==> forall e: EstadoContrato :: CodigoContrato(e) != s
  {
    if s == "ACTIVO" then Some(Activo)
    else if s == "CERRADO" then Some(Cerrado)
    else if s == "ANULADO" then Some(Anulado)
    else if s == "CANCELADO" then Some(Cancelado)
    else if s == "DEVOLUCION" then Some(Devolucion)
    else None
  }

  lemma EstadoContratoRoundTrip(e: EstadoContrato)
    ensures LeerEstadoContrato(CodigoContrato(e)) == Some(e)
  {
  }

  function CodigoLote(e: EstadoLote): string {
    match e
    case Disponible => "DISPONIBLE"
    case Reservado => "RESERVADO"
    case Vendido => "VENDIDO"
  }

  function CodigoMetodo(m: MetodoPago): string {
    match m
    case Efectivo => "EFECTIVO"
    case Transferencia => "TRANSFERENCIA"
  }

  // ---------------------------------------------------------------------
  // Records

  /** `ConfiguracionSistema`: the three flat penalty tiers, the (unused) percentage,
      and the company data printed on contracts; the logo upload is left out. */
  datatype Configuracion = Configuracion(
    moraLeveDias: int, moraLeveValor: Centavos,
    moraMediaDias: int, moraMediaValor: Centavos,
    moraGraveDias: int, moraGraveValor: Centavos,
    moraPorcentajeCentesimas: int,
    nombreEmpresa: string, rucEmpresa: string)

  /** A configuration row created with only the required company fields. */
  function ConfiguracionNueva(nombre: string, ruc: string): (c: Configuracion)
    ensures c.moraLeveDias == 5 && c.moraLeveValor == 500
    ensures c.moraMediaDias == 10 && c.moraMediaValor == 1000
    ensures c.moraGraveDias == 20 && c.moraGraveValor == 2000
    ensures c.moraPorcentajeCentesimas == 300
    ensures c.nombreEmpresa == nombre && c.rucEmpresa == ruc
    ensures c.moraLeveDias < c.moraMediaDias < c.moraGraveDias
    ensures 0 < c.moraLeveValor < c.moraMediaValor < c.moraGraveValor
  {
    Configuracion(5, 500, 10, 1000, 20, 2000, 300, nombre, ruc)
  }

  /** `Lote`; the optional picture, location and creator are left out. */
  datatype Lote = Lote(manzana: string, numeroLote: string, dimensiones: string,
                       precioContado: Centavos, estado: EstadoLote)

  function LoteNuevo(manzana: string, numero: string, dimensiones: string, precio: Centavos): (l: Lote)
    ensures l.estado == Disponible && l.precioContado == precio
  {
    Lote(manzana, numero, dimensiones, precio, Disponible)
  }

  /** `Cuota`: one installment of a contract's schedule. */
  datatype Cuota = Cuota(
    numero: int,
    fechaVencimiento: Fecha,
    valorCapital: Centavos,
    valorMora: Centavos,
    valorPagado: Centavos,
    estado: EstadoCuota,
    moraExenta: bool,
    fechaUltimoPago: Option<Fecha>)

  /** A `Cuota` created with only number, due date and principal given. */
  function CuotaNueva(numero: int, vence: Fecha, capital: Centavos): (c: Cuota)
    ensures c.numero == numero && c.fechaVencimiento == vence && c.valorCapital == capital
    ensures c.valorMora == 0 && c.valorPagado == 0
    ensures c.estado == Pendiente && !c.moraExenta && c.fechaUltimoPago.None?
  {
    Cuota(numero, vence, capital, 0, 0, Pendiente, false, None)
  }

  /** `Pago`: an amount received, with its evidence file reduced to its presence. */
  datatype Pago = Pago(
    fecha: Fecha,
    monto: Centavos,
    metodo: MetodoPago,
    comprobante: Option<string>,
    observacion: Option<string>,
    registradoPor: Option<nat>)

  /** `Contrato`, owning its installments (held in `numero_cuota` order) and its payments
      (held in creation order). Client and lot are referenced by id. */
  datatype Contrato = Contrato(
    cliente: nat,
    lote: nat,
    fechaContrato: Fecha,
    fechaCancelacion: Option<Fecha>,
    precioVentaFinal: Centavos,
    valorEntrada: Centavos,
    saldoAFinanciar: Centavos,
    numeroCuotas: int,
    estaEnMora: bool,
    estado: EstadoContrato,
    cuotas: seq<Cuota>,
    pagos: seq<Pago>)

  /** A `Contrato` row as `Contrato.objects.create` leaves it before any schedule exists. */
  function ContratoNuevo(cliente: nat, lote: nat, fecha: Fecha, precio: Centavos,
                         entrada: Centavos, saldo: Centavos, plazo: int): (k: Contrato)
    ensures k.estado == Activo && !k.estaEnMora && k.fechaCancelacion.None?
    ensures k.cuotas == [] && k.pagos == []
    ensures k.fechaContrato == fecha && k.saldoAFinanciar == saldo && k.numeroCuotas == plazo
    ensures k.precioVentaFinal == precio && k.valorEntrada == entrada
  {
    Contrato(cliente, lote, fecha, None, precio, entrada, saldo, plazo, false, Activo, [], [])
  }

  // ---------------------------------------------------------------------
  // Installment arithmetic

  /** `Cuota.total_a_pagar`: principal plus penalty. */
  function TotalAPagar(c: Cuota): Centavos {
    c.valorCapital + c.valorMora
  }

  /** What the allocator calls `falta_por_pagar`; negative when the installment is overpaid. */
  function Falta(c: Cuota): Centavos {
    TotalAPagar(c) - c.valorPagado
  }

  /** `Cuota.saldo_pendiente`: the amount still owed, with sub-cent results shown as zero. */
  function SaldoPendiente(c: Cuota): (r: Centavos)
    ensures r >= 0 && r >= Falta(c)
    ensures r == 0 || r == Falta(c)
    ensures r == 0 || r >= TOLERANCIA
    ensures r == 0 <==> Falta(c) < TOLERANCIA
  {
    var resultado := (c.valorCapital + c.valorMora) - c.valorPagado;
    if resultado < TOLERANCIA then 0 else resultado
  }

  /** The states the allocator and the delinquency engine still work on. */
  predicate EnCobro(e: EstadoCuota) {
    e == Pendiente || e == Parcial || e == Vencido
  }

  /** `Meta.ordering = ['numero_cuota']`: installments listed by ascending number. */
  predicate OrdenadasPorNumero(cs: seq<Cuota>) {
    forall i, j :: 0 <= i < j < |cs| ==> cs[i].numero < cs[j].numero
  }

  /** An installment only reaches PAGADO once what it owes is covered; every operation keeps this. */
  predicate Saldada(c: Cuota) {
    c.estado == Pagado ==> c.valorPagado >= TotalAPagar(c)
  }

  predicate Consistentes(cs: seq<Cuota>) {
    forall i :: 0 <= i < |cs| ==> Saldada(cs[i])
  }

  // ---------------------------------------------------------------------
  // Sums over installments and payments

  function SumaPagado(cs: seq<Cuota>): Centavos {
    if |cs| == 0 then 0 else cs[0].valorPagado + SumaPagado(cs[1..])
  }

  function SumaCapital(cs: seq<Cuota>): Centavos {
    if |cs| == 0 then 0 else cs[0].valorCapital + SumaCapital(cs[1..])
  }

  /** `sum(c.total_a_pagar - c.valor_pagado for c in cuotas)`. */
  function SumaFalta(cs: seq<Cuota>): Centavos {
    if |cs| == 0 then 0 else Falta(cs[0]) + SumaFalta(cs[1..])
  }

  /** `sum(p.monto for p in pagos)`. */
  function SumaMontos(ps: seq<Pago>): Centavos {
    if |ps| == 0 then 0 else ps[0].monto + SumaMontos(ps[1..])
  }

  lemma {:induction false} SumaMontosAppend(ps: seq<Pago>, p: Pago)
    ensures SumaMontos(ps + [p]) == SumaMontos(ps) + p.monto
  {
    if |ps| > 0 {
      assert (ps + [p])[1..] == ps[1..] + [p];
      SumaMontosAppend(ps[1..], p);
    }
  }

  /** When nothing is owed on any installment the total owed is not positive. */
  lemma {:induction false} NadaPendienteSumaNoPositiva(cs: seq<Cuota>)
    requires forall i :: 0 <= i < |cs| ==> Falta(cs[i]) <= 0
    ensures SumaFalta(cs) <= 0
  {
    if |cs| > 0 {
      assert forall i :: 0 <= i < |cs[1..]| ==> cs[1..][i] == cs[i + 1];
      NadaPendienteSumaNoPositiva(cs[1..]);
    }
  }
}

=== FILE: moras.dfy ===
/**
 The delinquency engine (`actualizar_moras_contrato`): every unpaid installment
 whose due date has passed becomes VENCIDO and carries the flat penalty of the
 most severe tier its lateness reaches (none when it is exempt); the contract's
 `esta_en_mora` flag is then recomputed. "Today" is a parameter.
 */
module Moras {
  import opened Wrappers
  import opened Calendar
  import opened Models

  /** The three flat tiers as the engine reads them. */
  datatype Politica = Politica(
    diasLeve: int, valorLeve: Centavos,
    diasMedia: int, valorMedia: Centavos,
    diasGrave: int, valorGrave: Centavos)

  /** The tiers taken from the first configuration row, or the engine's own fallback when
      there is none (note its light tier starts after one day, not five). */
  function PoliticaVigente(config: Option<Configuracion>): Politica {
    match config
    case Some(c) => Politica(c.moraLeveDias, c.moraLeveValor, c.moraMediaDias, c.moraMediaValor,
                             c.moraGraveDias, c.moraGraveValor)
    case None => Politica(1, 500, 10, 1000, 20, 2000)
  }

  /** Thresholds and amounts that rise from light to severe. */
  predicate Escalonada(p: Politica) {
    p.diasLeve <= p.diasMedia <= p.diasGrave && 0 <= p.valorLeve <= p.valorMedia <= p.valorGrave
  }

  /** The penalty for `dias` days of lateness: tiers are tried from the most severe down
      and the first one reached wins; below every threshold there is none. */
  function MoraPorAtraso(p: Politica, dias: int): (r: Centavos)
    ensures r == 0 || r == p.valorLeve || r == p.valorMedia || r == p.valorGrave
    ensures dias < p.diasLeve && dias < p.diasMedia && dias < p.diasGrave ==> r == 0
    ensures Escalonada(p) ==> 0 <= r <= p.valorGrave
  {
    if dias >= p.diasGrave then p.valorGrave
    else if dias >= p.diasMedia then p.valorMedia
    else if dias >= p.diasLeve then p.valorLeve
    else 0
  }

  /** With rising tiers, a later installment never carries a smaller penalty. */
  lemma MoraMonotona(p: Politica, d1: int, d2: int)
    requires Escalonada(p) && d1 <= d2
    ensures MoraPorAtraso(p, d1) <= MoraPorAtraso(p, d2)
  {
  }

  /** With ordered tiers the engine picks the highest tier reached: the amount of a tier is
      charged exactly when its threshold is met and the next one is not. */
  lemma MoraEsNivelAlcanzado(p: Politica, dias: int)
    requires p.diasLeve <= p.diasMedia <= p.diasGrave
    ensures dias >= p.diasGrave ==> MoraPorAtraso(p, dias) == p.valorGrave
    ensures p.diasMedia <= dias < p.diasGrave ==> MoraPorAtraso(p, dias) == p.valorMedia
    ensures p.diasLeve <= dias < p.diasMedia ==> MoraPorAtraso(p, dias) == p.valorLeve
    ensures dias < p.diasLeve ==> MoraPorAtraso(p, dias) == 0
  {
  }

  /** The installments the engine acts on this run. */
  predicate Afectada(c: Cuota, hoy: Fecha) {
    EnCobro(c.estado) && Before(c.fechaVencimiento, hoy)
  }

  /** The penalty an overdue installment should carry today. */
  function MoraDebida(p: Politica, hoy: Fecha, c: Cuota): Centavos {
    if c.moraExenta then 0 else MoraPorAtraso(p, DaysBetween(c.fechaVencimiento, hoy))
  }

  /** One installment through the loop body. */
  function ActualizarCuota(p: Politica, hoy: Fecha, c: Cuota): (r: Cuota)
    ensures r == c.(estado := r.estado, valorMora := r.valorMora)
    ensures !Afectada(c, hoy) ==> r == c
    ensures Afectada(c, hoy) ==> r.estado == Vencido
    ensures Afectada(c, hoy) ==>
      r.valorMora == (if c.moraExenta then 0 else MoraPorAtraso(p, DaysBetween(c.fechaVencimiento, hoy)))
  {
    if Afectada(c, hoy) then c.(estado := Vencido, valorMora := MoraDebida(p, hoy, c)) else c
  }

  /** `contrato.cuotas.filter(estado='VENCIDO').exists()`. */
  function HayVencidas(cs: seq<Cuota>): (r: bool)
    ensures r <==> exists i :: 0 <= i < |cs| && cs[i].estado == Vencido
  {
    if |cs| == 0 then false
    else if cs[0].estado == Vencido then true
    else
      var r := HayVencidas(cs[1..]);
      assert forall i :: 0 < i < |cs| ==> cs[i] == cs[1..][i - 1];
      r
  }

  /** `actualizar_moras_contrato`. */
  function ActualizarMoras(p: Politica, hoy: Fecha, k: Contrato): (r: Contrato)
    ensures r == k.(cuotas := r.cuotas, estaEnMora := r.estaEnMora)
    ensures |r.cuotas| == |k.cuotas|
    ensures forall i :: 0 <= i < |k.cuotas| && Afectada(k.cuotas[i], hoy) ==>
      r.cuotas[i] == k.cuotas[i].(estado := Vencido, valorMora := MoraDebida(p, hoy, k.cuotas[i]))
    ensures forall i :: 0 <= i < |k.cuotas| && !Afectada(k.cuotas[i], hoy) ==> r.cuotas[i] == k.cuotas[i]
    ensures r.estaEnMora <==> exists i :: 0 <= i < |r.cuotas| && r.cuotas[i].estado == Vencido
  {
    var cs := seq(|k.cuotas|, i requires 0 <= i < |k.cuotas| => ActualizarCuota(p, hoy, k.cuotas[i]));
    k.(cuotas := cs, estaEnMora := HayVencidas(cs))
  }

  // ---------------------------------------------------------------------
  // Properties of the refresh

  /** Nothing the refresh does changes principal, payments, numbering, dates or exemptions. */
  lemma MorasConservanPagos(p: Politica, hoy: Fecha, k: Contrato)
    ensures var r := ActualizarMoras(p, hoy, k);
      && SumaPagado(r.cuotas) == SumaPagado(k.cuotas)
      && SumaCapital(r.cuotas) == SumaCapital(k.cuotas)
      && (forall i :: 0 <= i < |k.cuotas| ==>
            r.cuotas[i].valorPagado == k.cuotas[i].valorPagado
            && r.cuotas[i].numero == k.cuotas[i].numero
            && r.cuotas[i].moraExenta == k.cuotas[i].moraExenta
            && (k.cuotas[i].estado == Pagado ==> r.cuotas[i] == k.cuotas[i]))
  {
    var r := ActualizarMoras(p, hoy, k);
    MismosPagos(k.cuotas, r.cuotas);
  }

  lemma {:induction false} MismosPagos(a: seq<Cuota>, b: seq<Cuota>)
    requires |a| == |b|
    requires forall i :: 0 <= i < |a| ==> a[i].valorPagado == b[i].valorPagado && a[i].valorCapital == b[i].valorCapital
    ensures SumaPagado(a) == SumaPagado(b) && SumaCapital(a) == SumaCapital(b)
  {
    if |a| > 0 {
      assert forall i :: 0 <= i < |a[1..]| ==> a[1..][i] == a[i + 1] && b[1..][i] == b[i + 1];
      MismosPagos(a[1..], b[1..]);
    }
  }

  /** The refresh keeps the installment order and the PAGADO-means-covered invariant. */
  lemma MorasPreservan(p: Politica, hoy: Fecha, k: Contrato)
    requires OrdenadasPorNumero(k.cuotas) && Consistentes(k.cuotas)
    ensures OrdenadasPorNumero(ActualizarMoras(p, hoy, k).cuotas)
    ensures Consistentes(ActualizarMoras(p, hoy, k).cuotas)
  {
  }

  /** Running the refresh twice on the same day gives the state of running it once. */
  lemma MorasIdempotente(p: Politica, hoy: Fecha, k: Contrato)
    ensures ActualizarMoras(p, hoy, ActualizarMoras(p, hoy, k)) == ActualizarMoras(p, hoy, k)
  {
    var r1 := ActualizarMoras(p, hoy, k);
    var r2 := ActualizarMoras(p, hoy, r1);
    forall i | 0 <= i < |k.cuotas|
      ensures r2.cuotas[i] == r1.cuotas[i]
    {
      if Afectada(k.cuotas[i], hoy) {
        assert Afectada(r1.cuotas[i], hoy);
        assert MoraDebida(p, hoy, r1.cuotas[i]) == MoraDebida(p, hoy, k.cuotas[i]);
      }
    }
    assert r2.cuotas == r1.cuotas;
  }

  /** After a refresh no installment that is due and unpaid escapes VENCIDO. */
  lemma NadaAtrasadoSinVencer(p: Politica, hoy: Fecha, k: Contrato)
    ensures var r := ActualizarMoras(p, hoy, k);
      forall i :: 0 <= i < |r.cuotas| && EnCobro(r.cuotas[i].estado) && Before(r.cuotas[i].fechaVencimiento, hoy)
        ==> r.cuotas[i].estado == Vencido
  {
  }

  /** An exempt overdue installment stays VENCIDO, with no penalty. */
  lemma ExentaVencidaSinMora(p: Politica, hoy: Fecha, k: Contrato, i: int)
    requires 0 <= i < |k.cuotas| && Afectada(k.cuotas[i], hoy) && k.cuotas[i].moraExenta
    ensures ActualizarMoras(p, hoy, k).cuotas[i].estado == Vencido
    ensures ActualizarMoras(p, hoy, k).cuotas[i].valorMora == 0
    ensures ActualizarMoras(p, hoy, k).estaEnMora
  {
  }

  /** Under the no-configuration fallback every overdue, non-exempt installment is charged
      at least the light tier: being before today means at least one day late. */
  lemma FallbackCobraDesdeElPrimerDia(hoy: Fecha, k: Contrato, i: int)
    requires 0 <= i < |k.cuotas| && Afectada(k.cuotas[i], hoy) && !k.cuotas[i].moraExenta
    ensures ActualizarMoras(PoliticaVigente(None), hoy, k).cuotas[i].valorMora >= 500
  {
    BeforeIffLater(k.cuotas[i].fechaVencimiento, hoy);
  }

  /** The fallback differs from a freshly created configuration row only in the light
      tier's threshold. */
  lemma FallbackFrenteAConfiguracionNueva(nombre: string, ruc: string)
    ensures var f := PoliticaVigente(None);
      var c := PoliticaVigente(Some(ConfiguracionNueva(nombre, ruc)));
      f.diasLeve == 1 && c.diasLeve == 5 && f == c.(diasLeve := 1)
  {
  }

  // ---------------------------------------------------------------------
  // Worked instance

  /** One 100.00 installment ten days overdue, light tier 5 days / 5.00 and the other tiers
      further out: VENCIDO with 5.00 of penalty, contract in arrears. */
  lemma DiezDiasDeAtraso(k: Contrato)
    requires |k.cuotas| == 1
    requires k.cuotas[0] == CuotaNueva(1, Date(2024, 3, 1), 10000)
    ensures var r := ActualizarMoras(Politica(5, 500, 15, 1000, 30, 2000), Date(2024, 3, 11), k);
      r.cuotas[0].estado == Vencido && r.cuotas[0].valorMora == 500 && r.estaEnMora
  {
    assert DaysBetween(Date(2024, 3, 1), Date(2024, 3, 11)) == 10;
  }

  /** The same installment under the default tiers reaches the middle tier at ten days. */
  lemma DiezDiasConfiguracionNueva(k: Contrato, nombre: string, ruc: string)
    requires |k.cuotas| == 1
    requires k.cuotas[0] == CuotaNueva(1, Date(2024, 3, 1), 10000)
    ensures var p := PoliticaVigente(Some(ConfiguracionNueva(nombre, ruc)));
      ActualizarMoras(p, Date(2024, 3, 11), k).cuotas[0].valorMora == 1000
  {
    assert DaysBetween(Date(2024, 3, 1), Date(2024, 3, 11)) == 10;
  }
}

=== FILE: pagos.dfy ===
/**
 The payment allocator (`registrar_pago_cliente`): a payment is recorded for its
 full amount, then poured over the contract's outstanding installments in
 `numero_cuota` order until it runs out; any surplus is noted on the payment,
 and the delinquency engine runs again.
 */
module Pagos {
  import opened Wrappers
  import opened Calendar
  import opened Text
  import opened Models
  import opened Moras

  /** What the outstanding installments still owe, each counted as `saldo_pendiente`. */
  function DeudaEnCobro(cs: seq<Cuota>): (r: Centavos)
    ensures r >= 0
  {
    if |cs| == 0 then 0
    else (if EnCobro(cs[0].estado) then SaldoPendiente(cs[0]) else 0) + DeudaEnCobro(cs[1..])
  }

  /** What is left of a payment of `monto` once a debt of `deuda` has been served. */
  function Sobrante(monto: Centavos, deuda: Centavos): Centavos {
    if monto <= 0 then monto else if monto - deuda > 0 then monto - deuda else 0
  }

  /** How one installment may change under allocation: only its state, amount paid and
      last-payment date move; outstanding ones only; payments only grow and never past
      what the installment owes; an installment it moves to PAGADO is covered. */
  predicate Abono(c: Cuota, d: Cuota) {
    && d == c.(estado := d.estado, valorPagado := d.valorPagado, fechaUltimoPago := d.fechaUltimoPago)
    && (!EnCobro(c.estado) ==> d == c)
    && c.valorPagado <= d.valorPagado
    && (d.valorPagado > c.valorPagado ==> d.valorPagado <= TotalAPagar(c))
    && (d != c ==> (d.estado == Pagado || d.estado == Parcial) && Saldada(d))
  }

  /** The loop of `registrar_pago_cliente` over the installments from the current one on,
      with `fondos` as `dinero_disponible`; returns the installments and what is left. */
  function Repartir(cs: seq<Cuota>, fondos: Centavos, hoy: Fecha): (r: (seq<Cuota>, Centavos))
    ensures |r.0| == |cs|
    ensures SumaPagado(r.0) + r.1 == SumaPagado(cs) + fondos
    ensures r.1 == Sobrante(fondos, DeudaEnCobro(cs))
    ensures fondos <= 0 ==> r.0 == cs
    ensures forall i {:trigger Abono(cs[i], r.0[i])} :: 0 <= i < |cs| ==> Abono(cs[i], r.0[i])
    decreases |cs|
  {
    if |cs| == 0 then (cs, fondos)
    else if !EnCobro(cs[0].estado) then
      var (resto, f) := Repartir(cs[1..], fondos, hoy);
      assert forall i :: 0 < i < |cs| ==> ([cs[0]] + resto)[i] == resto[i - 1] && cs[i] == cs[1..][i - 1];
      ([cs[0]] + resto, f)
    else if fondos <= 0 then (cs, fondos)
    else
      var c := cs[0];
      var falta := TotalAPagar(c) - c.valorPagado;
      if falta < TOLERANCIA then
        var (resto, f) := Repartir(cs[1..], fondos, hoy);
        ([c.(estado := Pagado, fechaUltimoPago := Some(hoy))] + resto, f)
      else if fondos >= falta then
        var (resto, f) := Repartir(cs[1..], fondos - falta, hoy);
        ([c.(valorPagado := c.valorPagado + falta, estado := Pagado, fechaUltimoPago := Some(hoy))] + resto, f)
      else
        var nuevoResto := falta - fondos;
        var d := c.(valorPagado := c.valorPagado + fondos,
                    estado := if nuevoResto < TOLERANCIA then Pagado else Parcial);
        assert ([d] + cs[1..])[1..] == cs[1..];
        ([d] + cs[1..], 0)
  }

  /** The surplus note written on the payment. */
  function NotaSaldoAFavor(sobrante: nat): string {
    "Pago procesado. Saldo a favor: $" + Amount(sobrante)
  }

  /** `registrar_pago_cliente`: returns the updated contract and the payment created. */
  function RegistrarPago(p: Politica, hoy: Fecha, k: Contrato, monto: Centavos, metodo: MetodoPago,
                         evidencia: Option<string>, usuario: Option<nat>): (r: (Contrato, Pago))
    ensures r.1.monto == monto && r.1.fecha == hoy && r.1.metodo == metodo
    ensures r.1.comprobante == evidencia && r.1.registradoPor == usuario
    ensures r.0.pagos == k.pagos + [r.1]
    ensures r.0 == k.(cuotas := r.0.cuotas, pagos := r.0.pagos, estaEnMora := r.0.estaEnMora)
    ensures |r.0.cuotas| == |k.cuotas|
    ensures SumaPagado(r.0.cuotas) + Sobrante(monto, DeudaEnCobro(k.cuotas)) == SumaPagado(k.cuotas) + monto
    ensures r.1.observacion.Some? <==> Sobrante(monto, DeudaEnCobro(k.cuotas)) > 0
    ensures r.1.observacion.Some? ==>
      r.1.observacion.value == NotaSaldoAFavor(monto - DeudaEnCobro(k.cuotas))
  {
    var nuevo := Pago(hoy, monto, metodo, evidencia, None, usuario);
    var (cs, disponible) := Repartir(k.cuotas, monto, hoy);
    var pago := if disponible > 0 then nuevo.(observacion := Some(NotaSaldoAFavor(disponible))) else nuevo;
    var k' := ActualizarMoras(p, hoy, k.(cuotas := cs, pagos := k.pagos + [pago]));
    MorasConservanPagos(p, hoy, k.(cuotas := cs, pagos := k.pagos + [pago]));
    (k', pago)
  }

  // ---------------------------------------------------------------------
  // Order and stopping

  /** The allocator only reaches past the first installment when that one is not outstanding,
      was already covered, or was paid off in full with money to spare or exactly. */
  predicate Sigue(c: Cuota, fondos: Centavos) {
    !EnCobro(c.estado) || (fondos > 0 && (Falta(c) < TOLERANCIA || fondos >= Falta(c)))
  }

  /** What is still available once the first installment has been served. */
  function TrasLaPrimera(c: Cuota, fondos: Centavos): Centavos {
    if !EnCobro(c.estado) || Falta(c) < TOLERANCIA then fondos else fondos - Falta(c)
  }

  lemma SoloSiSigue(cs: seq<Cuota>, fondos: Centavos, hoy: Fecha, j: int)
    requires 0 < j < |cs|
    ensures var r := Repartir(cs, fondos, hoy).0;
      r[j] != cs[j] ==> Sigue(cs[0], fondos) && r[1..] == Repartir(cs[1..], TrasLaPrimera(cs[0], fondos), hoy).0
  {
    var r := Repartir(cs, fondos, hoy).0;
    if !Sigue(cs[0], fondos) {
      assert r[1..] == cs[1..];
      assert r[j] == r[1..][j - 1];
    }
  }

  /** An outstanding first installment the loop goes past ends paid off. */
  lemma PrimeraSaldada(cs: seq<Cuota>, fondos: Centavos, hoy: Fecha)
    requires 0 < |cs| && EnCobro(cs[0].estado) && Sigue(cs[0], fondos)
    ensures Repartir(cs, fondos, hoy).0[0].estado == Pagado
    ensures SaldoPendiente(Repartir(cs, fondos, hoy).0[0]) == 0
  {
  }

  /** Allocation goes in list order: when it touches installment `j`, every outstanding one
      before it has been settled in full. */
  lemma {:induction false} TocadaTrasSaldadas(cs: seq<Cuota>, fondos: Centavos, hoy: Fecha, i: int, j: int)
    requires 0 <= i < j < |cs| && EnCobro(cs[i].estado)
    requires Repartir(cs, fondos, hoy).0[j] != cs[j]
    ensures Repartir(cs, fondos, hoy).0[i].estado == Pagado
    ensures SaldoPendiente(Repartir(cs, fondos, hoy).0[i]) == 0
    decreases i
  {
    var r := Repartir(cs, fondos, hoy).0;
    SoloSiSigue(cs, fondos, hoy, j);
    if i == 0 {
      PrimeraSaldada(cs, fondos, hoy);
    } else {
      var resto := Repartir(cs[1..], TrasLaPrimera(cs[0], fondos), hoy).0;
      assert r[1..] == resto;
      assert resto[i - 1] == r[i] && resto[j - 1] == r[j];
      assert cs[1..][i - 1] == cs[i] && cs[1..][j - 1] == cs[j];
      TocadaTrasSaldadas(cs[1..], TrasLaPrimera(cs[0], fondos), hoy, i - 1, j - 1);
    }
  }

  lemma RepartoEnOrden(cs: seq<Cuota>, fondos: Centavos, hoy: Fecha)
    ensures var r := Repartir(cs, fondos, hoy).0;
      forall i, j :: 0 <= i < j < |cs| && r[j] != cs[j] && EnCobro(cs[i].estado) ==>
        r[i].estado == Pagado && SaldoPendiente(r[i]) == 0
  {
    var r := Repartir(cs, fondos, hoy).0;
    forall i, j | 0 <= i < j < |cs| && r[j] != cs[j] && EnCobro(cs[i].estado)
      ensures r[i].estado == Pagado && SaldoPendiente(r[i]) == 0
    {
      TocadaTrasSaldadas(cs, fondos, hoy, i, j);
    }
  }

  /** At most one installment is paid in part, and it is the last one touched: it ends
      PARCIAL, nothing is left over and every later installment is untouched. */
  lemma {:induction false} ParcialEsLaUltima(cs: seq<Cuota>, fondos: Centavos, hoy: Fecha, j: int)
    requires 0 <= j < |cs|
    requires var r := Repartir(cs, fondos, hoy).0;
      r[j].valorPagado > cs[j].valorPagado && r[j].valorPagado < TotalAPagar(cs[j])
    ensures var r := Repartir(cs, fondos, hoy);
      && r.0[j].estado == Parcial && r.1 == 0
      && forall k :: j < k < |cs| ==> r.0[k] == cs[k]
    decreases |cs|
  {
    var r := Repartir(cs, fondos, hoy);
    var c := cs[0];
    var falta := TotalAPagar(c) - c.valorPagado;
    if !EnCobro(c.estado) || (fondos > 0 && (falta < TOLERANCIA || fondos >= falta)) {
      var f' := TrasLaPrimera(c, fondos);
      var resto := Repartir(cs[1..], f', hoy);
      assert r.0[1..] == resto.0;
      if j == 0 {
        assert false;
      }
      assert r.0[j] == resto.0[j - 1] && cs[j] == cs[1..][j - 1];
      ParcialEsLaUltima(cs[1..], f', hoy, j - 1);
      forall k | j < k < |cs|
        ensures r.0[k] == cs[k]
      {
        assert r.0[k] == resto.0[k - 1] && cs[k] == cs[1..][k - 1];
      }
    } else {
      assert r.0[1..] == cs[1..];
      forall k | 0 < k < |cs|
        ensures r.0[k] == cs[k]
      {
        assert r.0[k] == r.0[1..][k - 1];
      }
    }
  }

  /** A surplus only remains once every outstanding installment has been settled. */
  lemma {:induction false} SobranteSoloSiTodoSaldado(cs: seq<Cuota>, fondos: Centavos, hoy: Fecha)
    requires fondos > 0
    requires Repartir(cs, fondos, hoy).1 > 0
    ensures var r := Repartir(cs, fondos, hoy).0;
      forall i :: 0 <= i < |cs| && EnCobro(cs[i].estado) ==> r[i].estado == Pagado && SaldoPendiente(r[i]) == 0
    decreases |cs|
  {
    if |cs| > 0 {
      var r := Repartir(cs, fondos, hoy).0;
      var c := cs[0];
      var falta := TotalAPagar(c) - c.valorPagado;
      var f' := TrasLaPrimera(c, fondos);
      var resto := Repartir(cs[1..], f', hoy).0;
      assert r[1..] == resto;
      SobranteSoloSiTodoSaldado(cs[1..], f', hoy);
      forall i | 0 < i < |cs| && EnCobro(cs[i].estado)
        ensures r[i].estado == Pagado && SaldoPendiente(r[i]) == 0
      {
        assert r[i] == resto[i - 1] && cs[i] == cs[1..][i - 1];
      }
    }
  }

  /** Paying exactly what the first outstanding installment owes settles that one and
      leaves every other installment as it was. */
  lemma {:induction false} PagoExactoDeLaPrimera(cs: seq<Cuota>, hoy: Fecha, k: int)
    requires 0 <= k < |cs| && EnCobro(cs[k].estado) && Falta(cs[k]) >= TOLERANCIA
    requires forall i :: 0 <= i < k ==> !EnCobro(cs[i].estado)
    ensures var r := Repartir(cs, Falta(cs[k]), hoy);
      && r.1 == 0
      && r.0[k] == cs[k].(valorPagado := TotalAPagar(cs[k]), estado := Pagado, fechaUltimoPago := Some(hoy))
      && forall i :: 0 <= i < |cs| && i != k ==> r.0[i] == cs[i]
    decreases k
  {
    var r := Repartir(cs, Falta(cs[k]), hoy);
    if k > 0 {
      var resto := Repartir(cs[1..], Falta(cs[k]), hoy);
      assert r.0 == [cs[0]] + resto.0;
      assert cs[1..][k - 1] == cs[k];
      PagoExactoDeLaPrimera(cs[1..], hoy, k - 1);
      forall i | 0 < i < |cs|
        ensures r.0[i] == (if i == k then cs[k].(valorPagado := TotalAPagar(cs[k]), estado := Pagado, fechaUltimoPago := Some(hoy)) else cs[i])
      {
        assert r.0[i] == resto.0[i - 1] && cs[i] == cs[1..][i - 1];
      }
    } else {
      var resto := Repartir(cs[1..], 0, hoy);
      assert r.0 == [r.0[0]] + resto.0;
      forall i | 0 < i < |cs|
        ensures r.0[i] == cs[i]
      {
        assert r.0[i] == resto.0[i - 1] && cs[i] == cs[1..][i - 1];
      }
    }
  }

  // ---------------------------------------------------------------------
  // Invariants kept by a payment

  lemma AbonoPreserva(cs: seq<Cuota>, ds: seq<Cuota>)
    requires |cs| == |ds| && forall i :: 0 <= i < |cs| ==> Abono(cs[i], ds[i])
    requires OrdenadasPorNumero(cs) && Consistentes(cs)
    ensures OrdenadasPorNumero(ds) && Consistentes(ds)
  {
    assert forall i :: 0 <= i < |cs| ==> ds[i].numero == cs[i].numero;
  }

  /** Registering a payment keeps the installments in order and the PAGADO invariant. */
  lemma PagoPreserva(p: Politica, hoy: Fecha, k: Contrato, monto: Centavos, metodo: MetodoPago,
                     evidencia: Option<string>, usuario: Option<nat>)
    requires OrdenadasPorNumero(k.cuotas) && Consistentes(k.cuotas)
    ensures var r := RegistrarPago(p, hoy, k, monto, metodo, evidencia, usuario).0;
      OrdenadasPorNumero(r.cuotas) && Consistentes(r.cuotas)
  {
    var (cs, _) := Repartir(k.cuotas, monto, hoy);
    AbonoPreserva(k.cuotas, cs);
    var nuevo := Pago(hoy, monto, metodo, evidencia, None, usuario);
    var d := Repartir(k.cuotas, monto, hoy).1;
    var pago := if d > 0 then nuevo.(observacion := Some(NotaSaldoAFavor(d))) else nuevo;
    MorasPreservan(p, hoy, k.(cuotas := cs, pagos := k.pagos + [pago]));
  }
}

=== FILE: reporte_general.dfy ===
/**
 The general report (`reporte_general_view`): a grid with one row per contract
 and one column per month of the requested range, each cell the amount paid on
 the installments that fall due in that month; refunded contracts (DEVOLUCION)
 count against the column and grand totals. The `YYYY-MM` parameters arrive
 already split into year and month; "today" is a parameter.
 */
module ReporteGeneral {
  import opened Wrappers
  import opened Calendar
  import opened Models
  import opened Ciclo

  // ---------------------------------------------------------------------
  // The month range

  /** A `YYYY-MM` parameter as two numbers. */
  datatype Mes = Mes(year: int, month: int)

  /** Raised by `date(...)` for a month that does not exist. */
  datatype ErrorFecha = MesInexistente(mes: Mes)

  predicate MesValido(m: Mes) {
    1 <= m.year && 1 <= m.month <= 12
  }

  /** The last day of a month: its first day plus one month less one day. */
  function FinDeMes(y: int, m: int): (r: Fecha)
    requires 1 <= y && 1 <= m <= 12
    ensures r.year == y && r.month == m && r.day == DaysInMonth(y, m)
  {
    Date(y, m, DaysInMonth(y, m))
  }

  /** `desde`: the first of the given month, or January 1st of this year. */
  function Desde(desde: Option<Mes>, hoy: Fecha): (r: Result<Fecha, ErrorFecha>)
    ensures r.Failure? <==> desde.Some? && !MesValido(desde.value)
    ensures r.Success? ==> r.value.day == 1
    ensures r.Success? && desde.Some? ==> r.value.year == desde.value.year && r.value.month == desde.value.month
    ensures r.Success? && desde.None? ==> r.value == Date(hoy.year, 1, 1)
  {
    match desde
    case None => Success(Date(hoy.year, 1, 1))
    case Some(m) => if MesValido(m) then Success(Date(m.year, m.month, 1)) else Failure(MesInexistente(m))
  }

  /** `hasta`: the last day of the given month, or today. */
  function Hasta(hasta: Option<Mes>, hoy: Fecha): (r: Result<Fecha, ErrorFecha>)
    ensures r.Failure? <==> hasta.Some? && !MesValido(hasta.value)
    ensures r.Success? && hasta.Some? ==> r.value == FinDeMes(hasta.value.year, hasta.value.month)
    ensures r.Success? && hasta.None? ==> r.value == hoy
  {
    match hasta
    case None => Success(hoy)
    case Some(m) => if MesValido(m) then Success(FinDeMes(m.year, m.month)) else Failure(MesInexistente(m))
  }

  lemma NotAfterMonthIndex(a: Fecha, b: Fecha)
    requires NotAfter(a, b)
    ensures MonthIndex(a) <= MonthIndex(b)
  {
  }

  /** A first of the month is never after a day of the same or a later month. */
  lemma PrimeroNoPasa(a: Fecha, b: Fecha)
    ensures a.day == 1 && MonthIndex(a) <= MonthIndex(b) ==> NotAfter(a, b)
  {
  }

  /** The first days of the months from `actual` while they do not pass `hasta`. */
  function Meses(actual: Fecha, hasta: Fecha): (r: seq<Fecha>)
    ensures forall i :: 0 <= i < |r| ==> NotAfter(r[i], hasta)
    ensures actual.day == 1 ==> |r| == (if MonthIndex(actual) <= MonthIndex(hasta) then MonthIndex(hasta) - MonthIndex(actual) + 1 else 0)
    ensures actual.day == 1 ==> forall i :: 0 <= i < |r| ==> r[i].day == 1 && MonthIndex(r[i]) == MonthIndex(actual) + i
    decreases MonthIndex(hasta) - MonthIndex(actual) + 1
  {
    if !NotAfter(actual, hasta) then
      PrimeroNoPasa(actual, hasta);
      []
    else
      NotAfterMonthIndex(actual, hasta);
      var resto := Meses(AddMonths(actual, 1), hasta);
      assert forall i :: 0 < i < |resto| + 1 ==> ([actual] + resto)[i] == resto[i - 1];
      [actual] + resto
  }

  // ---------------------------------------------------------------------
  // Rows

  predicate VenceEnMes(c: Cuota, mes: Fecha) {
    NotAfter(mes, c.fechaVencimiento) && NotAfter(c.fechaVencimiento, FinDeMes(mes.year, mes.month))
  }

  /** `sum(c.valor_pagado for c in cuotas_mes)`. */
  function PagadoEnMes(cs: seq<Cuota>, mes: Fecha): Centavos {
    if |cs| == 0 then 0
    else (if VenceEnMes(cs[0], mes) then cs[0].valorPagado else 0) + PagadoEnMes(cs[1..], mes)
  }

  function SumaSeq(s: seq<Centavos>): Centavos {
    if |s| == 0 then 0 else s[0] + SumaSeq(s[1..])
  }

  datatype Fila = Fila(cliente: nat, lote: nat, pagosMensuales: seq<Centavos>, totalPagado: Centavos, esDevolucion: bool)

  function PagosMensuales(cs: seq<Cuota>, meses: seq<Fecha>): (r: seq<Centavos>)
    ensures |r| == |meses| && forall i :: 0 <= i < |meses| ==> r[i] == PagadoEnMes(cs, meses[i])
  {
    seq(|meses|, i requires 0 <= i < |meses| => PagadoEnMes(cs, meses[i]))
  }

  /** One contract's row: a cell per month and their sum. */
  function FilaDe(k: Contrato, meses: seq<Fecha>): (r: Fila)
    ensures |r.pagosMensuales| == |meses|
    ensures r.totalPagado == SumaSeq(r.pagosMensuales)
    ensures r.esDevolucion <==> k.estado == Devolucion
  {
    var pm := PagosMensuales(k.cuotas, meses);
    Fila(k.cliente, k.lote, pm, SumaSeq(pm), k.estado == Devolucion)
  }

  function Signo(f: Fila): int {
    if f.esDevolucion then -1 else 1
  }

  /** `a[i] + s * b[i]` cell by cell. */
  function Combinar(a: seq<Centavos>, b: seq<Centavos>, s: int): (r: seq<Centavos>)
    requires |a| == |b|
    ensures |r| == |a|
    ensures forall i :: 0 <= i < |a| ==> r[i] == a[i] + s * b[i]
  {
    if |a| == 0 then [] else
      var resto := Combinar(a[1..], b[1..], s);
      assert forall i :: 0 < i < |a| ==> a[i] == a[1..][i - 1] && b[i] == b[1..][i - 1];
      [a[0] + s * b[0]] + resto
  }

  function Ceros(n: nat): (r: seq<Centavos>)
    ensures |r| == n && forall i :: 0 <= i < n ==> r[i] == 0
  {
    seq(n, i => 0)
  }

  predicate Anchura(filas: seq<Fila>, n: nat) {
    forall j :: 0 <= j < |filas| ==> |filas[j].pagosMensuales| == n
  }

  /** One row's cell in column `i`, zero past the row's end. */
  function Celda(f: Fila, i: int): Centavos {
    if 0 <= i < |f.pagosMensuales| then f.pagosMensuales[i] else 0
  }

  /** Column `i` read down the rows, each cell taken with its row's sign. */
  function ColumnaFirmada(filas: seq<Fila>, i: int): Centavos {
    if |filas| == 0 then 0 else Signo(filas[0]) * Celda(filas[0], i) + ColumnaFirmada(filas[1..], i)
  }

  /** `totales_mensuales`: each column summed over the rows, refunds subtracted. */
  function TotalesMensuales(filas: seq<Fila>, n: nat): (r: seq<Centavos>)
    requires Anchura(filas, n)
    ensures |r| == n
    ensures forall i :: 0 <= i < n ==> r[i] == ColumnaFirmada(filas, i)
  {
    if |filas| == 0 then Ceros(n)
    else Combinar(TotalesMensuales(filas[1..], n), filas[0].pagosMensuales, Signo(filas[0]))
  }

  /** `total_general`: each row's total, refunds subtracted. */
  function TotalGeneral(filas: seq<Fila>): Centavos {
    if |filas| == 0 then 0 else Signo(filas[0]) * filas[0].totalPagado + TotalGeneral(filas[1..])
  }

  /** `total_cuotas`: the first installment's principal of every contract that has one. */
  function TotalCuotas(ks: seq<Contrato>): Centavos {
    if |ks| == 0 then 0
    else (if |ks[0].cuotas| > 0 then ks[0].cuotas[0].valorCapital else 0) + TotalCuotas(ks[1..])
  }

  /** `r` holds each contract of `ks` as many times as `ks` does, except that "only active"
      drops every contract that is not ACTIVO. */
  ghost predicate ConservaFiltrados(ks: seq<Contrato>, soloActivos: bool, r: seq<Contrato>) {
    forall k :: multiset(r)[k] == (if soloActivos && k.estado != Activo then 0 else multiset(ks)[k])
  }

  /** The `estado='ACTIVO'` filter of the queryset. */
  function Filtrar(ks: seq<Contrato>, soloActivos: bool): (r: seq<Contrato>)
    ensures forall i :: 0 <= i < |r| ==> r[i] in ks && (soloActivos ==> r[i].estado == Activo)
    ensures !soloActivos ==> r == ks
    ensures forall k :: k in ks && (soloActivos ==> k.estado == Activo) ==> k in r
    ensures ConservaFiltrados(ks, soloActivos, r)
  {
    if |ks| == 0 then []
    else
      var resto := Filtrar(ks[1..], soloActivos);
      var r := if !soloActivos || ks[0].estado == Activo then [ks[0]] + resto else resto;
      FiltrarPaso(ks, soloActivos, resto);
      FiltradosPertenecen(ks, soloActivos, r);
      r
  }

  lemma FiltrarPaso(ks: seq<Contrato>, soloActivos: bool, resto: seq<Contrato>)
    requires |ks| > 0 && ConservaFiltrados(ks[1..], soloActivos, resto)
    ensures ConservaFiltrados(ks, soloActivos,
      if !soloActivos || ks[0].estado == Activo then [ks[0]] + resto else resto)
  {
    assert ks == [ks[0]] + ks[1..];
  }

  lemma FiltradosPertenecen(ks: seq<Contrato>, soloActivos: bool, r: seq<Contrato>)
    requires ConservaFiltrados(ks, soloActivos, r)
    ensures forall i :: 0 <= i < |r| ==> r[i] in ks && (soloActivos ==> r[i].estado == Activo)
    ensures forall k :: k in ks && (soloActivos ==> k.estado == Activo) ==> k in r
  {
    forall i | 0 <= i < |r|
      ensures r[i] in ks && (soloActivos ==> r[i].estado == Activo)
    {
      assert multiset(r)[r[i]] > 0;
    }
    forall k | k in ks && (soloActivos ==> k.estado == Activo)
      ensures k in r
    {
      assert multiset(ks)[k] > 0;
    }
  }

  function Filas(ks: seq<Contrato>, meses: seq<Fecha>): (r: seq<Fila>)
    ensures |r| == |ks| && Anchura(r, |meses|)
    ensures forall j :: 0 <= j < |ks| ==> r[j] == FilaDe(ks[j], meses)
  {
    seq(|ks|, j requires 0 <= j < |ks| => FilaDe(ks[j], meses))
  }

  // ---------------------------------------------------------------------
  // The report

  datatype Reporte = Reporte(
    desde: Fecha,
    hasta: Fecha,
    meses: seq<Fecha>,
    filas: seq<Fila>,
    totalesMensuales: seq<Centavos>,
    totalGeneral: Centavos,
    totalCuotas: Centavos)

  /** `reporte_general_view` over every contract on record, as a superuser sees it. */
  function Generar(hoy: Fecha, desde: Option<Mes>, hasta: Option<Mes>, soloActivos: bool, ks: seq<Contrato>)
    : (r: Result<Reporte, ErrorFecha>)
    ensures r.Failure? <==> (desde.Some? && !MesValido(desde.value)) || (hasta.Some? && !MesValido(hasta.value))
    ensures r.Success? ==>
      var g := r.value;
      && g.desde == Desde(desde, hoy).value && g.hasta == Hasta(hasta, hoy).value
      && g.meses == Meses(g.desde, g.hasta)
      && g.filas == Filas(Filtrar(ks, soloActivos), g.meses)
      && |g.totalesMensuales| == |g.meses|
      && (forall i :: 0 <= i < |g.meses| ==> g.totalesMensuales[i] == ColumnaFirmada(g.filas, i))
      && g.totalGeneral == TotalGeneral(g.filas)
      && SumaSeq(g.totalesMensuales) == g.totalGeneral
      && g.totalCuotas == TotalCuotas(Filtrar(ks, soloActivos))
  {
    match Desde(desde, hoy)
    case Failure(e) => Failure(e)
    case Success(d) =>
      match Hasta(hasta, hoy)
      case Failure(e) => Failure(e)
      case Success(h) =>
        var meses := Meses(d, h);
        var contratos := Filtrar(ks, soloActivos);
        var filas := Filas(contratos, meses);
        var totales := TotalesMensuales(filas, |meses|);
        ColumnasSumanElTotal(filas, |meses|);
        Success(Reporte(d, h, meses, filas, totales, TotalGeneral(filas), TotalCuotas(contratos)))
  }

  // ---------------------------------------------------------------------
  // Properties

  lemma {:induction false} SumaCombinada(a: seq<Centavos>, b: seq<Centavos>, s: int)
    requires |a| == |b|
    ensures SumaSeq(Combinar(a, b, s)) == SumaSeq(a) + s * SumaSeq(b)
  {
    if |a| > 0 {
      var r := Combinar(a, b, s);
      assert r[1..] == Combinar(a[1..], b[1..], s);
      SumaCombinada(a[1..], b[1..], s);
    }
  }

  lemma {:induction false} SumaCeros(n: nat)
    ensures SumaSeq(Ceros(n)) == 0
  {
    if n > 0 {
      assert Ceros(n)[1..] == Ceros(n - 1);
      SumaCeros(n - 1);
    }
  }

  /** The grand total is the sum of the column totals: summing rows first or months first
      gives the same figure. */
  lemma {:induction false} ColumnasSumanElTotal(filas: seq<Fila>, n: nat)
    requires Anchura(filas, n)
    requires forall j :: 0 <= j < |filas| ==> filas[j].totalPagado == SumaSeq(filas[j].pagosMensuales)
    ensures SumaSeq(TotalesMensuales(filas, n)) == TotalGeneral(filas)
  {
    if |filas| == 0 {
      SumaCeros(n);
    } else {
      assert forall j :: 0 <= j < |filas[1..]| ==> filas[1..][j] == filas[j + 1];
      ColumnasSumanElTotal(filas[1..], n);
      SumaCombinada(TotalesMensuales(filas[1..], n), filas[0].pagosMensuales, Signo(filas[0]));
    }
  }

  lemma {:induction false} TotalGeneralReemplazado(filas: seq<Fila>, j: int, f: Fila)
    requires 0 <= j < |filas|
    ensures TotalGeneral(filas[j := f])
         == TotalGeneral(filas) - Signo(filas[j]) * filas[j].totalPagado + Signo(f) * f.totalPagado
  {
    if j > 0 {
      assert filas[j := f][1..] == filas[1..][j - 1 := f];
      TotalGeneralReemplazado(filas[1..], j - 1, f);
    } else {
      assert filas[j := f][1..] == filas[1..];
    }
  }

  /** Refunding a contract turns its row's contribution negative: the grand total drops by
      twice what was paid on its installments in the range. */
  lemma DevolucionRestaDosVeces(hoy: Fecha, desde: Option<Mes>, hasta: Option<Mes>, ks: seq<Contrato>,
                                j: int, lote: Lote, dia: Fecha)
    requires 0 <= j < |ks| && ks[j].estado != Devolucion
    requires (desde.None? || MesValido(desde.value)) && (hasta.None? || MesValido(hasta.value))
    ensures var antes := Generar(hoy, desde, hasta, false, ks).value;
      var despues := Generar(hoy, desde, hasta, false, ks[j := Devolver(ks[j], lote, dia, true).0]).value;
      despues.totalGeneral == antes.totalGeneral - 2 * antes.filas[j].totalPagado
  {
    var k' := Devolver(ks[j], lote, dia, true).0;
    var ks' := ks[j := k'];
    var m := Meses(Desde(desde, hoy).value, Hasta(hasta, hoy).value);
    TodosGenerado(hoy, desde, hasta, ks);
    TodosGenerado(hoy, desde, hasta, ks');
    FilasReemplazadas(ks, j, k', m);
    TotalGeneralReemplazado(Filas(ks, m), j, FilaDe(k', m));
  }

  /** With every contract kept, the report's rows and grand total are those of the list. */
  lemma TodosGenerado(hoy: Fecha, desde: Option<Mes>, hasta: Option<Mes>, ks: seq<Contrato>)
    requires (desde.None? || MesValido(desde.value)) && (hasta.None? || MesValido(hasta.value))
    ensures var g := Generar(hoy, desde, hasta, false, ks).value;
      var m := Meses(Desde(desde, hoy).value, Hasta(hasta, hoy).value);
      g.filas == Filas(ks, m) && g.totalGeneral == TotalGeneral(Filas(ks, m))
  {
  }

  lemma FilasReemplazadas(ks: seq<Contrato>, j: int, k: Contrato, meses: seq<Fecha>)
    requires 0 <= j < |ks|
    ensures Filas(ks[j := k], meses) == Filas(ks, meses)[j := FilaDe(k, meses)]
  {
    var antes := Filas(ks, meses);
    var despues := Filas(ks[j := k], meses);
    assert forall i :: 0 <= i < |ks| ==> despues[i] == antes[j := FilaDe(k, meses)][i];
  }

  /** With no parameters the range runs from January of this year to today, one column
      per month so far. */
  lemma RangoPorDefecto(hoy: Fecha, ks: seq<Contrato>)
    ensures var g := Generar(hoy, None, None, false, ks).value;
      |g.meses| == hoy.month && g.meses[0] == Date(hoy.year, 1, 1)
  {
    var d := Date(hoy.year, 1, 1);
    var ms := Meses(d, hoy);
    assert MonthIndex(hoy) - MonthIndex(d) + 1 == hoy.month;
    assert ms[0].day == 1 && MonthIndex(ms[0]) == MonthIndex(d);
  }
}

=== FILE: reporte_mensual.dfy ===
/**
 The monthly report (`reporte_mensual_view`): the month's income grouped by
 client, the arrears of active contracts keyed by client, the refunds made in
 the month, and the net figure the page shows. Client-keyed dictionaries are
 association lists in insertion order; "today" is a parameter.
 */
module ReporteMensual {
  import opened Wrappers
  import opened Calendar
  import opened Models
  import opened Moras
  import opened Pagos
  import opened Ciclo

  // ---------------------------------------------------------------------
  // Client-keyed tables

  /** A dictionary from client id to an amount, in insertion order. */
  type Tabla = seq<(nat, Centavos)>

  function SumaValores(t: Tabla): Centavos {
    if |t| == 0 then 0 else t[0].1 + SumaValores(t[1..])
  }

  /** The amount recorded under client `c`: the sum of its entries, which with unique keys
      is its one entry, and 0 when it has none. */
  function Valor(t: Tabla, c: nat): Centavos {
    if |t| == 0 then 0 else (if t[0].0 == c then t[0].1 else 0) + Valor(t[1..], c)
  }

  predicate ClavesUnicas(t: Tabla) {
    forall i, j :: 0 <= i < j < |t| ==> t[i].0 != t[j].0
  }

  predicate NoNegativos(t: Tabla) {
    forall i :: 0 <= i < |t| ==> t[i].1 >= 0
  }

  lemma {:induction false} SumaConcatenada(a: Tabla, b: Tabla)
    ensures SumaValores(a + b) == SumaValores(a) + SumaValores(b)
    ensures forall c :: Valor(a + b, c) == Valor(a, c) + Valor(b, c)
  {
    if |a| > 0 {
      assert (a + b)[1..] == a[1..] + b;
      SumaConcatenada(a[1..], b);
    } else {
      assert a + b == b;
    }
  }

  lemma {:induction false} SumaReemplazada(t: Tabla, i: int, e: (nat, Centavos))
    requires 0 <= i < |t| && e.0 == t[i].0
    ensures SumaValores(t[i := e]) == SumaValores(t) - t[i].1 + e.1
    ensures Valor(t[i := e], e.0) == Valor(t, e.0) - t[i].1 + e.1
    ensures forall c :: c != e.0 ==> Valor(t[i := e], c) == Valor(t, c)
  {
    if i > 0 {
      assert t[i := e][1..] == t[1..][i - 1 := e];
      SumaReemplazada(t[1..], i - 1, e);
    } else {
      assert t[i := e][1..] == t[1..];
    }
  }

  lemma {:induction false} ValorAusente(t: Tabla, c: nat)
    requires forall i :: 0 <= i < |t| ==> t[i].0 != c
    ensures Valor(t, c) == 0
  {
    if |t| > 0 {
      assert forall i :: 0 <= i < |t[1..]| ==> t[1..][i] == t[i + 1];
      ValorAusente(t[1..], c);
    }
  }

  lemma {:induction false} ValorUnico(t: Tabla, i: int)
    requires ClavesUnicas(t) && 0 <= i < |t|
    ensures Valor(t, t[i].0) == t[i].1
  {
    assert forall j :: 0 <= j < |t[1..]| ==> t[1..][j] == t[j + 1];
    if i > 0 {
      ValorUnico(t[1..], i - 1);
    } else {
      ValorAusente(t[1..], t[0].0);
    }
  }

  lemma {:induction false} ValorNoNegativo(t: Tabla, c: nat)
    requires NoNegativos(t)
    ensures Valor(t, c) >= 0
  {
    if |t| > 0 {
      assert forall i :: 0 <= i < |t[1..]| ==> t[1..][i] == t[i + 1];
      ValorNoNegativo(t[1..], c);
    }
  }

  lemma {:induction false} SumaNoNegativa(t: Tabla)
    requires NoNegativos(t)
    ensures SumaValores(t) >= 0
  {
    if |t| > 0 {
      assert forall i :: 0 <= i < |t[1..]| ==> t[1..][i] == t[i + 1];
      SumaNoNegativa(t[1..]);
    }
  }

  function Posicion(t: Tabla, c: nat): (r: Option<nat>)
    ensures r.Some? ==> r.value < |t| && t[r.value].0 == c
    ensures r.None? ==> forall i :: 0 <= i < |t| ==> t[i].0 != c
  {
    if |t| == 0 then None
    else if t[0].0 == c then Some(0)
    else
      var r := Posicion(t[1..], c);
      assert forall i :: 0 < i < |t| ==> t[i] == t[1..][i - 1];
      if r.Some? then Some(r.value + 1) else None
  }

  /** `d[c]['total_pagado'] += m`, with the entry created at the end the first time. */
  function Sumar(t: Tabla, c: nat, m: Centavos): (r: Tabla)
    ensures SumaValores(r) == SumaValores(t) + m
    ensures Valor(r, c) == Valor(t, c) + m
    ensures forall c' :: c' != c ==> Valor(r, c') == Valor(t, c')
    ensures ClavesUnicas(t) ==> ClavesUnicas(r)
  {
    match Posicion(t, c)
    case Some(i) =>
      SumaReemplazada(t, i, (c, t[i].1 + m));
      t[i := (c, t[i].1 + m)]
    case None =>
      SumaConcatenada(t, [(c, m)]);
      assert Valor([(c, m)], c) == m;
      assert forall c' :: c' != c ==> Valor([(c, m)], c') == 0;
      t + [(c, m)]
  }

  /** `d[c] = v`: a later entry for the same client replaces the earlier one. */
  function Asignar(t: Tabla, c: nat, v: Centavos): (r: Tabla)
    requires ClavesUnicas(t)
    ensures ClavesUnicas(r)
    ensures Valor(r, c) == v
    ensures forall c' :: c' != c ==> Valor(r, c') == Valor(t, c')
    ensures SumaValores(r) == SumaValores(t) - Valor(t, c) + v
    ensures NoNegativos(t) && v >= 0 ==> NoNegativos(r)
  {
    match Posicion(t, c)
    case Some(i) =>
      ValorUnico(t, i);
      SumaReemplazada(t, i, (c, v));
      t[i := (c, v)]
    case None =>
      ValorAusente(t, c);
      SumaConcatenada(t, [(c, v)]);
      assert Valor([(c, v)], c) == v;
      assert forall c' :: c' != c ==> Valor([(c, v)], c') == 0;
      t + [(c, v)]
  }

  // ---------------------------------------------------------------------
  // Income of the month

  /** The month runs from its first day to today, both included. */
  predicate EnElMes(d: Fecha, primer: Fecha, hoy: Fecha) {
    NotAfter(primer, d) && NotAfter(d, hoy)
  }

  function PrimerDia(hoy: Fecha): (r: Fecha)
    ensures r.year == hoy.year && r.month == hoy.month && r.day == 1
    ensures NotAfter(r, hoy)
  {
    Date(hoy.year, hoy.month, 1)
  }

  /** One `(client, amount)` entry per payment of the month. */
  function EntradasPagos(c: nat, ps: seq<Pago>, primer: Fecha, hoy: Fecha): Tabla {
    if |ps| == 0 then []
    else (if EnElMes(ps[0].fecha, primer, hoy) then [(c, ps[0].monto)] else [])
         + EntradasPagos(c, ps[1..], primer, hoy)
  }

  lemma {:induction false} EntradasPagosAgregado(c: nat, ps: seq<Pago>, p: Pago, primer: Fecha, hoy: Fecha)
    requires EnElMes(p.fecha, primer, hoy)
    ensures EntradasPagos(c, ps + [p], primer, hoy) == EntradasPagos(c, ps, primer, hoy) + [(c, p.monto)]
  {
    if |ps| > 0 {
      assert (ps + [p])[1..] == ps[1..] + [p];
      EntradasPagosAgregado(c, ps[1..], p, primer, hoy);
    } else {
      assert EntradasPagos(c, [p][1..], primer, hoy) == [];
    }
  }

  function Entradas(ks: seq<Contrato>, primer: Fecha, hoy: Fecha): Tabla {
    if |ks| == 0 then [] else EntradasPagos(ks[0].cliente, ks[0].pagos, primer, hoy) + Entradas(ks[1..], primer, hoy)
  }

  /** What one contract took in during the month. */
  function IngresosDe(k: Contrato, primer: Fecha, hoy: Fecha): Centavos {
    SumaValores(EntradasPagos(k.cliente, k.pagos, primer, hoy))
  }

  function SumaIngresos(ks: seq<Contrato>, primer: Fecha, hoy: Fecha): Centavos {
    if |ks| == 0 then 0 else IngresosDe(ks[0], primer, hoy) + SumaIngresos(ks[1..], primer, hoy)
  }

  lemma {:induction false} EntradasSuman(ks: seq<Contrato>, primer: Fecha, hoy: Fecha)
    ensures SumaValores(Entradas(ks, primer, hoy)) == SumaIngresos(ks, primer, hoy)
  {
    if |ks| > 0 {
      SumaConcatenada(EntradasPagos(ks[0].cliente, ks[0].pagos, primer, hoy), Entradas(ks[1..], primer, hoy));
      EntradasSuman(ks[1..], primer, hoy);
    }
  }

  /** The grouping loop over the month's payments. */
  function Agrupar(t: Tabla, es: Tabla): (r: Tabla)
    ensures SumaValores(r) == SumaValores(t) + SumaValores(es)
    ensures forall c :: Valor(r, c) == Valor(t, c) + Valor(es, c)
    ensures ClavesUnicas(t) ==> ClavesUnicas(r)
    decreases |es|
  {
    if |es| == 0 then t else Agrupar(Sumar(t, es[0].0, es[0].1), es[1..])
  }

  // ---------------------------------------------------------------------
  // Arrears and refunds

  /** `sum(c.saldo_pendiente for c in cuotas_vencidas)`. */
  function DeudaVencida(cs: seq<Cuota>): (r: Centavos)
    ensures r >= 0
    ensures r == 0 <==> forall i :: 0 <= i < |cs| && cs[i].estado == Vencido ==> SaldoPendiente(cs[i]) == 0
  {
    if |cs| == 0 then 0
    else
      assert forall i :: 0 < i < |cs| ==> cs[i] == cs[1..][i - 1];
      (if cs[0].estado == Vencido then SaldoPendiente(cs[0]) else 0) + DeudaVencida(cs[1..])
  }

  /** What one contract adds to the arrears table: an ACTIVO contract flagged in arrears whose
      overdue installments still owe something. */
  function MoraDe(k: Contrato): (r: Centavos)
    ensures r >= 0
    ensures r > 0 <==> k.estado == Activo && k.estaEnMora && DeudaVencida(k.cuotas) > 0
  {
    if k.estado == Activo && k.estaEnMora && DeudaVencida(k.cuotas) > 0 then DeudaVencida(k.cuotas) else 0
  }

  function SumaMoraDe(ks: seq<Contrato>): (r: Centavos)
    ensures r >= 0
  {
    if |ks| == 0 then 0 else MoraDe(ks[0]) + SumaMoraDe(ks[1..])
  }

  /** The arrears loop: each qualifying contract writes its debt under its client's id. */
  function AsignarMoras(t: Tabla, ks: seq<Contrato>): (r: Tabla)
    requires ClavesUnicas(t) && NoNegativos(t)
    ensures ClavesUnicas(r) && NoNegativos(r)
    ensures SumaValores(r) <= SumaValores(t) + SumaMoraDe(ks)
    decreases |ks|
  {
    if |ks| == 0 then t
    else
      var t' := if MoraDe(ks[0]) > 0 then Asignar(t, ks[0].cliente, MoraDe(ks[0])) else t;
      ValorNoNegativo(t, ks[0].cliente);
      AsignarMoras(t', ks[1..])
  }

  predicate ClientesDistintos(ks: seq<Contrato>) {
    forall i, j :: 0 <= i < j < |ks| ==> ks[i].cliente != ks[j].cliente
  }

  /** When no client holds two contracts, nothing is overwritten and the arrears total is the
      sum over the qualifying contracts. */
  lemma {:induction false} MoraSinRepetidos(t: Tabla, ks: seq<Contrato>)
    requires ClavesUnicas(t) && NoNegativos(t) && ClientesDistintos(ks)
    requires forall i :: 0 <= i < |ks| ==> Valor(t, ks[i].cliente) == 0
    ensures SumaValores(AsignarMoras(t, ks)) == SumaValores(t) + SumaMoraDe(ks)
    decreases |ks|
  {
    if |ks| > 0 {
      var t' := if MoraDe(ks[0]) > 0 then Asignar(t, ks[0].cliente, MoraDe(ks[0])) else t;
      assert forall i :: 0 <= i < |ks[1..]| ==> ks[1..][i] == ks[i + 1];
      MoraSinRepetidos(t', ks[1..]);
    }
  }

  lemma MoraTotalSinRepetidos(ks: seq<Contrato>)
    ensures ClientesDistintos(ks) ==> SumaValores(AsignarMoras([], ks)) == SumaMoraDe(ks)
  {
    if ClientesDistintos(ks) {
      MoraSinRepetidos([], ks);
    }
  }

  /** Two arrears contracts of one client count once: the later one replaces the earlier. */
  lemma MoraMismoCliente(k1: Contrato, k2: Contrato)
    requires k1.cliente == k2.cliente && MoraDe(k1) > 0 && MoraDe(k2) > 0
    ensures SumaValores(AsignarMoras([], [k1, k2])) == MoraDe(k2)
    ensures SumaMoraDe([k1, k2]) == MoraDe(k1) + MoraDe(k2)
  {
    var t1 := Asignar([], k1.cliente, MoraDe(k1));
    assert [k1, k2][1..] == [k2];
    assert [k2][1..] == [];
    assert AsignarMoras([], [k1, k2]) == AsignarMoras(t1, [k2]);
    assert AsignarMoras(t1, [k2]) == AsignarMoras(Asignar(t1, k2.cliente, MoraDe(k2)), []);
  }

  predicate DevueltoEnElMes(k: Contrato, primer: Fecha, hoy: Fecha) {
    k.estado == Devolucion && k.fechaCancelacion.Some? && EnElMes(k.fechaCancelacion.value, primer, hoy)
  }

  /** Refunds of the month: every payment the contract ever received. */
  function Devoluciones(ks: seq<Contrato>, primer: Fecha, hoy: Fecha): Tabla {
    if |ks| == 0 then []
    else (if DevueltoEnElMes(ks[0], primer, hoy) then [(ks[0].cliente, SumaMontos(ks[0].pagos))] else [])
         + Devoluciones(ks[1..], primer, hoy)
  }

  function DevueltoDe(k: Contrato, primer: Fecha, hoy: Fecha): Centavos {
    if DevueltoEnElMes(k, primer, hoy) then SumaMontos(k.pagos) else 0
  }

  function SumaDevuelto(ks: seq<Contrato>, primer: Fecha, hoy: Fecha): Centavos {
    if |ks| == 0 then 0 else DevueltoDe(ks[0], primer, hoy) + SumaDevuelto(ks[1..], primer, hoy)
  }

  lemma {:induction false} DevolucionesSuman(ks: seq<Contrato>, primer: Fecha, hoy: Fecha)
    ensures SumaValores(Devoluciones(ks, primer, hoy)) == SumaDevuelto(ks, primer, hoy)
  {
    if |ks| > 0 {
      var cabeza := if DevueltoEnElMes(ks[0], primer, hoy) then [(ks[0].cliente, SumaMontos(ks[0].pagos))] else [];
      SumaConcatenada(cabeza, Devoluciones(ks[1..], primer, hoy));
      DevolucionesSuman(ks[1..], primer, hoy);
    }
  }

  // ---------------------------------------------------------------------
  // The report

  datatype Reporte = Reporte(
    inicio: Fecha,
    fin: Fecha,
    ingresos: Tabla,
    totalIngresos: Centavos,
    mora: Tabla,
    totalMora: Centavos,
    devoluciones: Tabla,
    totalDevoluciones: Centavos,
    ingresoNeto: Centavos)

  /** `reporte_mensual_view` over every contract on record, as a superuser sees it. */
  function Generar(hoy: Fecha, ks: seq<Contrato>): (r: Reporte)
    ensures r.inicio == PrimerDia(hoy) && r.fin == hoy
    ensures ClavesUnicas(r.ingresos) && ClavesUnicas(r.mora)
    ensures forall c :: Valor(r.ingresos, c) == Valor(Entradas(ks, r.inicio, hoy), c)
    ensures r.totalIngresos == SumaIngresos(ks, r.inicio, hoy)
    ensures 0 <= r.totalMora <= SumaMoraDe(ks)
    ensures ClientesDistintos(ks) ==> r.totalMora == SumaMoraDe(ks)
    ensures r.totalDevoluciones == SumaDevuelto(ks, r.inicio, hoy)
    ensures r.ingresoNeto == r.totalIngresos - r.totalMora - r.totalDevoluciones
  {
    var primer := PrimerDia(hoy);
    var ingresos := Agrupar([], Entradas(ks, primer, hoy));
    EntradasSuman(ks, primer, hoy);
    var mora := AsignarMoras([], ks);
    SumaNoNegativa(mora);
    MoraTotalSinRepetidos(ks);
    var devoluciones := Devoluciones(ks, primer, hoy);
    DevolucionesSuman(ks, primer, hoy);
    var totalIngresos := SumaValores(ingresos);
    var totalMora := SumaValores(mora);
    var totalDevoluciones := SumaValores(devoluciones);
    Reporte(primer, hoy, ingresos, totalIngresos, mora, totalMora, devoluciones, totalDevoluciones,
            totalIngresos - totalMora - totalDevoluciones)
  }

  // ---------------------------------------------------------------------
  // The report against the operations that feed it

  lemma {:induction false} SumaIngresosReemplazada(ks: seq<Contrato>, i: int, k: Contrato, primer: Fecha, hoy: Fecha)
    requires 0 <= i < |ks|
    ensures SumaIngresos(ks[i := k], primer, hoy)
         == SumaIngresos(ks, primer, hoy) - IngresosDe(ks[i], primer, hoy) + IngresosDe(k, primer, hoy)
  {
    if i > 0 {
      assert ks[i := k][1..] == ks[1..][i - 1 := k];
      SumaIngresosReemplazada(ks[1..], i - 1, k, primer, hoy);
    } else {
      assert ks[i := k][1..] == ks[1..];
    }
  }

  /** A payment registered today shows up in this month's income for its full amount,
      surplus included. */
  lemma PagoDeHoyEnElReporte(p: Politica, hoy: Fecha, ks: seq<Contrato>, i: int, monto: Centavos,
                             metodo: MetodoPago, evidencia: Option<string>, usuario: Option<nat>)
    requires 0 <= i < |ks|
    ensures var k' := RegistrarPago(p, hoy, ks[i], monto, metodo, evidencia, usuario).0;
      Generar(hoy, ks[i := k']).totalIngresos == Generar(hoy, ks).totalIngresos + monto
  {
    var (k', pago) := RegistrarPago(p, hoy, ks[i], monto, metodo, evidencia, usuario);
    var primer := PrimerDia(hoy);
    EntradasPagosAgregado(ks[i].cliente, ks[i].pagos, pago, primer, hoy);
    SumaConcatenada(EntradasPagos(ks[i].cliente, ks[i].pagos, primer, hoy), [(ks[i].cliente, monto)]);
    SumaIngresosReemplazada(ks, i, k', primer, hoy);
  }

  lemma {:induction false} SumaDevueltoReemplazada(ks: seq<Contrato>, i: int, k: Contrato, primer: Fecha, hoy: Fecha)
    requires 0 <= i < |ks|
    ensures SumaDevuelto(ks[i := k], primer, hoy)
         == SumaDevuelto(ks, primer, hoy) - DevueltoDe(ks[i], primer, hoy) + DevueltoDe(k, primer, hoy)
  {
    if i > 0 {
      assert ks[i := k][1..] == ks[1..][i - 1 := k];
      SumaDevueltoReemplazada(ks[1..], i - 1, k, primer, hoy);
    } else {
      assert ks[i := k][1..] == ks[1..];
    }
  }

  /** A refund made today enters this month's refunds with everything the contract was paid,
      and lowers the net figure by that much. */
  lemma DevolucionDeHoyEnElReporte(hoy: Fecha, ks: seq<Contrato>, i: int, lote: Lote)
    requires 0 <= i < |ks| && !DevueltoEnElMes(ks[i], PrimerDia(hoy), hoy)
    ensures var k' := Devolver(ks[i], lote, hoy, true).0;
      Generar(hoy, ks[i := k']).totalDevoluciones == Generar(hoy, ks).totalDevoluciones + SumaMontos(ks[i].pagos)
  {
    var k' := Devolver(ks[i], lote, hoy, true).0;
    SumaDevueltoReemplazada(ks, i, k', PrimerDia(hoy), hoy);
  }
}

=== FILE: text.dfy ===
/**
 The few Python `str` operations the ledger relies on: `in`, `partition`,
 `split(sep)[k]`, `strip()`, `rstrip(".")`, and the decimal rendering of an
 amount in cents.
 */
module Text {
  import opened Wrappers

  // ---------------------------------------------------------------------
  // Searching

  predicate OccursAt(s: string, p: string, i: nat) {
    i + |p| <= |s| && s[i..i + |p|] == p
  }

  /** The first occurrence of `p` in `s` at or after position `i` (`str.find(p, i)`). */
  function FindFrom(s: string, p: string, i: nat): (r: Option<nat>)
    ensures r.Some? ==> i <= r.value && OccursAt(s, p, r.value)
    ensures r.Some? ==> forall j :: i <= j < r.value ==> !OccursAt(s, p, j)
    ensures r.None? ==> forall j :: i <= j ==> !OccursAt(s, p, j)
    decreases |s| - i
  {
    if i + |p| > |s| then None
    else if OccursAt(s, p, i) then Some(i)
    else FindFrom(s, p, i + 1)
  }

  function Find(s: string, p: string): Option<nat> {
    FindFrom(s, p, 0)
  }

  /** Python's `p in s`. */
  predicate Contains(s: string, p: string) {
    Find(s, p).Some?
  }

  /** An occurrence with no earlier one is the one `Find` reports. */
  lemma FindIsFirst(s: string, p: string, i: nat)
    requires OccursAt(s, p, i)
    requires forall j: nat :: j < i ==> !OccursAt(s, p, j)
    ensures Find(s, p) == Some(i)
  {
  }

  /** `(head, found, tail)` as `s.partition(sep)` returns it; `("", false, "")` stands for the
      missing separator with `head == s`. */
  function Partition(s: string, sep: string): (r: (string, bool, string))
    ensures r.1 == Contains(s, sep)
    ensures r.1 ==> s == r.0 + sep + r.2
    ensures r.1 && |sep| > 0 ==> !Contains(r.0 + sep[..|sep| - 1], sep)
    ensures !r.1 ==> r.0 == s && r.2 == ""
  {
    match Find(s, sep)
    case None => (s, false, "")
    case Some(i) =>
      assert s == s[..i] + sep + s[i + |sep|..] by { assert s[i..i + |sep|] == sep; }
      PrefixFree(s, sep, i);
      (s[..i], true, s[i + |sep|..])
  }

  /** Before the first occurrence nothing, not even an occurrence cut short by its end, matches. */
  lemma PrefixFree(s: string, sep: string, i: nat)
    requires Find(s, sep) == Some(i)
    ensures |sep| == 0 || !Contains(s[..i] + sep[..|sep| - 1], sep)
  {
    if |sep| > 0 {
      var t := s[..i] + sep[..|sep| - 1];
      assert t == s[..i + |sep| - 1];
      forall j: nat | OccursAt(t, sep, j)
        ensures false
      {
        assert t[j..j + |sep|] == s[j..j + |sep|];
        assert OccursAt(s, sep, j);
      }
    }
  }

  /** `s.split(sep)[0]`. */
  function SplitFirst(s: string, sep: string): string {
    Partition(s, sep).0
  }

  /** `s.split(sep)[1]`, or `None` where Python raises `IndexError`. */
  function SplitSecond(s: string, sep: string): Option<string> {
    var (_, found, tail) := Partition(s, sep);
    if found then Some(Partition(tail, sep).0) else None
  }

  // ---------------------------------------------------------------------
  // Facts for reading fields back out of a concatenation

  /** If the first character of `p` never occurs in `x`, every occurrence in `x + y` lies in `y`. */
  lemma OccursPastHead(x: string, y: string, p: string, j: nat)
    requires |p| > 0 && p[0] !in x
    requires OccursAt(x + y, p, j)
    ensures j >= |x| && OccursAt(y, p, j - |x|)
  {
    assert (x + y)[j] == p[0];
    assert (x + y)[j..j + |p|] == y[j - |x|..j - |x| + |p|];
  }

  /** If `y` starts with a character found nowhere in `p` but at its head, no occurrence in
      `x + y` straddles the seam. */
  lemma OccursOnOneSide(x: string, y: string, p: string, j: nat)
    requires |p| > 0 && |y| > 0 && y[0] !in p[1..]
    requires OccursAt(x + y, p, j)
    ensures (j + |p| <= |x| && OccursAt(x, p, j)) || (j >= |x| && OccursAt(y, p, j - |x|))
  {
    var s := x + y;
    if j < |x| < j + |p| {
      SeamCharacter(x, y, p, j);
      assert false;
    } else if j + |p| <= |x| {
      assert s[j..j + |p|] == x[j..j + |p|];
    } else if |x| <= j {
      assert s[j..j + |p|] == y[j - |x|..j - |x| + |p|];
    }
  }

  /** An occurrence straddling the seam of `x + y` puts `y[0]` inside `p` past its head. */
  lemma SeamCharacter(x: string, y: string, p: string, j: nat)
    requires |y| > 0 && j < |x| < j + |p|
    requires OccursAt(x + y, p, j)
    ensures y[0] in p[1..]
  {
    var s := x + y;
    assert s[|x|] == y[0];
    assert s[j..j + |p|][|x| - j] == s[|x|];
    assert p[1..][|x| - j - 1] == p[|x| - j];
  }

  lemma NoneInHead(x: string, y: string, p: string)
    requires |p| > 0 && p[0] !in x && !Contains(y, p)
    ensures !Contains(x + y, p)
  {
    forall j: nat | OccursAt(x + y, p, j)
      ensures false
    {
      OccursPastHead(x, y, p, j);
    }
  }

  lemma NoneOnEitherSide(x: string, y: string, p: string)
    requires |p| > 0 && |y| > 0 && y[0] !in p[1..]
    requires !Contains(x, p) && !Contains(y, p)
    ensures !Contains(x + y, p)
  {
    forall j: nat | OccursAt(x + y, p, j)
      ensures false
    {
      OccursOnOneSide(x, y, p, j);
    }
  }

  /** `x + p + z` finds `p` right after `x` when `x` holds no occurrence and `p`'s first
      character does not recur inside `p`. */
  lemma FindAfterHead(x: string, p: string, z: string)
    requires |p| > 0 && p[0] !in p[1..]
    requires !Contains(x, p)
    ensures Find(x + p + z, p) == Some(|x|)
  {
    var s := x + p + z;
    assert s[|x|..|x| + |p|] == p;
    forall j: nat | j < |x| && OccursAt(s, p, j)
      ensures false
    {
      assert s == x + (p + z);
      OccursOnOneSide(x, p + z, p, j);
    }
    FindIsFirst(s, p, |x|);
  }

  /** A character of `p` that `s` lacks rules the whole of `p` out. */
  lemma MissingCharacter(s: string, p: string, c: char)
    requires c in p && c !in s
    ensures !Contains(s, p)
  {
  }

  lemma ContainsLiteral(x: string, p: string, z: string)
    requires |p| > 0
    ensures Contains(x + p + z, p)
  {
    var s := x + p + z;
    assert s[|x|..|x| + |p|] == p;
    assert OccursAt(s, p, |x|);
  }

  // ---------------------------------------------------------------------
  // Stripping

  /** `str.isspace()` for a single character. */
  predicate IsSpace(c: char) {
    var n := c as int;
    (9 <= n <= 13) || (28 <= n <= 32) || n == 0x85 || n == 0xA0 || n == 0x1680
    || (0x2000 <= n <= 0x200A) || n == 0x2028 || n == 0x2029 || n == 0x202F
    || n == 0x205F || n == 0x3000
  }

  function LStrip(s: string): (r: string)
    ensures |r| <= |s| && r == s[|s| - |r|..]
    ensures forall i :: 0 <= i < |s| - |r| ==> IsSpace(s[i])
    ensures |r| == 0 || !IsSpace(r[0])
  {
    if |s| > 0 && IsSpace(s[0]) then LStrip(s[1..]) else s
  }

  /** Drops trailing characters satisfying `drop`. */
  function RStripBy(s: string, drop: char -> bool): (r: string)
    ensures |r| <= |s| && r == s[..|r|]
    ensures forall i :: |r| <= i < |s| ==> drop(s[i])
    ensures |r| == 0 || !drop(r[|r| - 1])
  {
    if |s| > 0 && drop(s[|s| - 1]) then RStripBy(s[..|s| - 1], drop) else s
  }

  function RStrip(s: string): string {
    RStripBy(s, IsSpace)
  }

  /** `s.strip()`. */
  function Strip(s: string): string {
    RStrip(LStrip(s))
  }

  predicate IsDot(c: char) {
    c == '.'
  }

  /** `s.rstrip(".")`. */
  function RStripDots(s: string): string {
    RStripBy(s, IsDot)
  }

  lemma RStripDotsKeeps(s: string)
    requires |s| == 0 || s[|s| - 1] != '.'
    ensures RStripDots(s) == s
  {
  }

  lemma RStripDotsDrops(s: string)
    ensures RStripDots(s + ".") == RStripDots(s)
  {
    assert (s + ".")[..|s|] == s;
  }

  /** A string `strip()` leaves alone. */
  predicate Trimmed(s: string) {
    |s| == 0 || (!IsSpace(s[0]) && !IsSpace(s[|s| - 1]))
  }

  lemma StripTrimmed(s: string)
    requires Trimmed(s)
    ensures Strip(s) == s
  {
    assert LStrip(s) == s;
    assert RStripBy(s, IsSpace) == s;
  }

  lemma StripSpaceThenTrimmed(s: string)
    requires Trimmed(s)
    ensures Strip(" " + s) == s
  {
    var t := " " + s;
    assert IsSpace(t[0]) && t[1..] == s;
    assert LStrip(t) == LStrip(s);
    StripTrimmed(s);
  }

  // ---------------------------------------------------------------------
  // Decimal digits

  function DigitChar(d: int): char
    requires 0 <= d <= 9
  {
    "0123456789"[d]
  }

  function DigitValue(c: char): int {
    if '0' <= c <= '9' then (c as int) - ('0' as int) else 0
  }

  lemma DigitRoundTrip(d: int)
    requires 0 <= d <= 9
    ensures DigitValue(DigitChar(d)) == d
  {
  }

  /** `str(n)` for a natural number. */
  function Decimal(n: nat): (r: string)
    ensures |r| >= 1
    decreases n
  {
    if n < 10 then [DigitChar(n)] else Decimal(n / 10) + [DigitChar(n % 10)]
  }

  /** `int(s)` for a run of decimal digits. */
  function DecimalValue(s: string): nat {
    if |s| == 0 then 0 else DecimalValue(s[..|s| - 1]) * 10 + DigitValue(s[|s| - 1])
  }

  lemma {:induction false} DecimalRoundTrip(n: nat)
    ensures DecimalValue(Decimal(n)) == n
    decreases n
  {
    var r := Decimal(n);
    if n < 10 {
      DigitRoundTrip(n);
    } else {
      DecimalRoundTrip(n / 10);
      DigitRoundTrip(n % 10);
      assert r[..|r| - 1] == Decimal(n / 10);
    }
  }

  /** The two-character fraction of an amount in cents. */
  function Cents(cents: nat): (r: string)
    ensures |r| == 2 && DecimalValue(r) == cents % 100
  {
    var r := [DigitChar(cents % 100 / 10), DigitChar(cents % 10)];
    assert r[..1] == [r[0]];
    assert r[..1][..0] == [];
    DigitRoundTrip(cents % 100 / 10);
    DigitRoundTrip(cents % 10);
    assert DecimalValue(r[..1]) == DigitValue(r[0]);
    assert DecimalValue(r) == DecimalValue(r[..1]) * 10 + DigitValue(r[1]);
    r
  }

  /** An amount in cents printed with two decimals, as `str` prints a two-place `Decimal`. */
  function Amount(cents: nat): (r: string)
    ensures |r| >= 4 && r[|r| - 3] == '.'
    ensures DecimalValue(r[..|r| - 3]) * 100 + DecimalValue(r[|r| - 2..]) == cents
  {
    var units := Decimal(cents / 100);
    var frac := Cents(cents);
    var r := units + "." + frac;
    assert r[..|r| - 3] == units;
    assert r[|r| - 2..] == frac;
    DecimalRoundTrip(cents / 100);
    r
  }
}

=== FILE: venta.dfy ===
/**
 A sale (`crear_venta_view`) and the down-payment note it leaves behind: the
 form's payment method is mapped onto the two stored methods, the bank details
 are written into the payment's note, and the Word export later reads the
 method and the bank details back out of that note.
 */
module Venta {
  import opened Wrappers
  import opened Calendar
  import opened Text
  import opened Models
  import opened Amortizacion
  import opened Moras
  import opened Ciclo

  // ---------------------------------------------------------------------
  // Writing the note

  /** DEPOSITO is stored as a transfer; anything that is not a transfer is stored as cash. */
  function MetodoModelo(metodo: string): (r: MetodoPago)
    ensures r == Transferencia <==> metodo in {"TRANSFERENCIA", "DEPOSITO"}
  {
    if metodo == "TRANSFERENCIA" || metodo == "DEPOSITO" then Transferencia else Efectivo
  }

  const CABECERA_BANCO := "Banco:"
  const CABECERA_CUENTA := "Cuenta/Comp:"
  const SEPARADOR_CUENTA := ". Cuenta/Comp:"

  /** What follows the bank heading in a transfer's note. */
  function RestoBanco(banco: string, cuenta: string): string {
    " " + banco + SEPARADOR_CUENTA + " " + cuenta + "."
  }

  /** The bank-detail suffix a transfer's note carries. */
  function DatosBancarios(banco: string, cuenta: string): string {
    " " + CABECERA_BANCO + RestoBanco(banco, cuenta)
  }

  /** `observacion_pago` of the down payment. */
  function NotaEntrada(metodo: string, banco: string, cuenta: string): string {
    "Pago de Entrada (" + metodo + ")."
      + (if metodo == "TRANSFERENCIA" then DatosBancarios(banco, cuenta) else "")
  }

  // ---------------------------------------------------------------------
  // The sale

  /** The form of a sale, with amounts already quantized to cents and the contract date read. */
  datatype FormularioVenta = FormularioVenta(
    cliente: nat,
    loteId: nat,
    fechaContrato: Fecha,
    precioFinal: Centavos,
    entrada: Centavos,
    saldo: Centavos,
    plazo: int,
    metodoEntrada: string,
    bancoEntrada: string,
    cuentaEntrada: string,
    comprobante: Option<string>)

  /** The down payment a sale records, when its entry amount is positive. */
  function PagoDeEntrada(f: FormularioVenta, usuario: Option<nat>): (r: seq<Pago>)
    ensures |r| <= 1 && (|r| == 1 <==> f.entrada > 0)
    ensures |r| == 1 ==> r[0] == Pago(f.fechaContrato, f.entrada, MetodoModelo(f.metodoEntrada), f.comprobante,
                                      Some(NotaEntrada(f.metodoEntrada, f.bancoEntrada, f.cuentaEntrada)), usuario)
  {
    if f.entrada > 0 then
      [Pago(f.fechaContrato, f.entrada, MetodoModelo(f.metodoEntrada), f.comprobante,
            Some(NotaEntrada(f.metodoEntrada, f.bancoEntrada, f.cuentaEntrada)), usuario)]
    else []
  }

  /** `crear_venta_view` on a submitted form: contract, optional down payment, lot sold,
      schedule from the contract date, delinquency refresh. Returns contract and lot. */
  function CrearVenta(p: Politica, hoy: Fecha, f: FormularioVenta, lote: Lote, usuario: Option<nat>): (r: (Contrato, Lote))
    ensures r.1 == lote.(estado := Vendido)
    ensures r.0.estado == Activo && r.0.fechaCancelacion.None? && r.0.fechaContrato == f.fechaContrato
    ensures r.0.cliente == f.cliente && r.0.lote == f.loteId
    ensures r.0.saldoAFinanciar == f.saldo && r.0.numeroCuotas == f.plazo
    ensures r.0.precioVentaFinal == f.precioFinal && r.0.valorEntrada == f.entrada
    ensures r.0.pagos == PagoDeEntrada(f, usuario)
    ensures |r.0.cuotas| == (if f.plazo > 0 then f.plazo else 0)
    ensures SumaCapital(r.0.cuotas) == (if f.plazo > 0 then f.saldo else 0)
    ensures SumaPagado(r.0.cuotas) == 0
    ensures forall i :: 0 <= i < |r.0.cuotas| ==>
      && (r.0.cuotas[i].estado == Vencido <==> Before(r.0.cuotas[i].fechaVencimiento, hoy))
      && (r.0.cuotas[i].estado == Vencido ==>
            r.0.cuotas[i].valorMora == MoraPorAtraso(p, DaysBetween(r.0.cuotas[i].fechaVencimiento, hoy)))
    ensures r.0.estaEnMora <==> exists i :: 0 <= i < |r.0.cuotas| && r.0.cuotas[i].estado == Vencido
    ensures forall i :: 0 <= i < |r.0.cuotas| && r.0.cuotas[i].estado != Vencido ==>
      r.0.cuotas[i].estado == Pendiente && r.0.cuotas[i].valorMora == 0
    ensures f.plazo > 0 ==> forall i :: 0 <= i < |r.0.cuotas| ==>
      r.0.cuotas[i].(estado := Pendiente, valorMora := 0)
        == CuotaNueva(i + 1, Vence(f.fechaContrato, i + 1),
                      CapitalEn(i + 1, 1, f.plazo, f.saldo, RedondearMitadPar(f.saldo, f.plazo)))
  {
    var k0 := ContratoNuevo(f.cliente, f.loteId, f.fechaContrato, f.precioFinal, f.entrada, f.saldo, f.plazo);
    var k1 := k0.(pagos := PagoDeEntrada(f, usuario));
    var (k2, _) := GenerarTablaAmortizacion(k1, SinFecha);
    var k3 := ActualizarMoras(p, hoy, k2);
    MorasConservanPagos(p, hoy, k2);
    if f.plazo > 0 then
      TablaNueva(k2.cuotas, f.saldo, f.plazo, f.fechaContrato);
      RefrescoDeTablaNueva(p, hoy, k2);
      (k3, lote.(estado := Vendido))
    else (k3, lote.(estado := Vendido))
  }

  /** On a schedule nobody has paid or exempted yet, the refresh marks exactly the
      installments already past due, each with the tier its days late reach. */
  lemma RefrescoDeTablaNueva(p: Politica, hoy: Fecha, k: Contrato)
    requires forall i :: 0 <= i < |k.cuotas| ==>
      k.cuotas[i].estado == Pendiente && k.cuotas[i].valorMora == 0 && !k.cuotas[i].moraExenta
    ensures var cs := ActualizarMoras(p, hoy, k).cuotas;
      forall i :: 0 <= i < |cs| ==>
        && (cs[i].estado == Vencido <==> Before(cs[i].fechaVencimiento, hoy))
        && (cs[i].estado == Vencido ==> cs[i].valorMora == MoraPorAtraso(p, DaysBetween(cs[i].fechaVencimiento, hoy)))
        && (cs[i].estado != Vencido ==> cs[i].estado == Pendiente && cs[i].valorMora == 0)
        && cs[i].(estado := Pendiente, valorMora := 0) == k.cuotas[i]
  {
    var cs := ActualizarMoras(p, hoy, k).cuotas;
    forall i | 0 <= i < |cs|
      ensures cs[i].estado == Vencido <==> Before(cs[i].fechaVencimiento, hoy)
      ensures cs[i].estado == Vencido ==> cs[i].valorMora == MoraPorAtraso(p, DaysBetween(cs[i].fechaVencimiento, hoy))
      ensures cs[i].estado != Vencido ==> cs[i].estado == Pendiente && cs[i].valorMora == 0
      ensures cs[i].(estado := Pendiente, valorMora := 0) == k.cuotas[i]
    {
      if Afectada(k.cuotas[i], hoy) {
        assert cs[i] == k.cuotas[i].(estado := Vencido, valorMora := MoraDebida(p, hoy, k.cuotas[i]));
      } else {
        assert cs[i] == k.cuotas[i];
      }
    }
  }

  /** A sale's schedule is the one generated from the contract date: its first installment
      falls due on the day of the contract. */
  lemma VentaProgramaDesdeLaFecha(p: Politica, hoy: Fecha, f: FormularioVenta, lote: Lote, usuario: Option<nat>)
    requires f.plazo > 0
    ensures var k := CrearVenta(p, hoy, f, lote, usuario).0;
      && k.cuotas[0].fechaVencimiento == f.fechaContrato
      && OrdenadasPorNumero(k.cuotas)
      && (forall i :: 0 <= i < |k.cuotas| ==> k.cuotas[i].numero == i + 1 && k.cuotas[i].valorPagado == 0)
  {
    var k1 := ContratoNuevo(f.cliente, f.loteId, f.fechaContrato, f.precioFinal, f.entrada, f.saldo, f.plazo)
      .(pagos := PagoDeEntrada(f, usuario));
    var k2 := GenerarTablaAmortizacion(k1, SinFecha).0;
    TablaOrdenada(k2.cuotas, f.saldo, f.plazo, f.fechaContrato);
    TablaNueva(k2.cuotas, f.saldo, f.plazo, f.fechaContrato);
    MorasConservanPagos(p, hoy, k2);
  }

  /** A backdated sale is in arrears from the start: its first installment falls due on the
      contract date, which is already past. */
  lemma VentaAtrasadaNaceEnMora(p: Politica, hoy: Fecha, f: FormularioVenta, lote: Lote, usuario: Option<nat>)
    requires f.plazo > 0 && Before(f.fechaContrato, hoy)
    ensures var k := CrearVenta(p, hoy, f, lote, usuario).0;
      k.cuotas[0].estado == Vencido && k.estaEnMora
  {
    var k1 := ContratoNuevo(f.cliente, f.loteId, f.fechaContrato, f.precioFinal, f.entrada, f.saldo, f.plazo)
      .(pagos := PagoDeEntrada(f, usuario));
    var k2 := GenerarTablaAmortizacion(k1, SinFecha).0;
    TablaOrdenada(k2.cuotas, f.saldo, f.plazo, f.fechaContrato);
    TablaNueva(k2.cuotas, f.saldo, f.plazo, f.fechaContrato);
    assert Afectada(k2.cuotas[0], hoy);
  }

  /** Refunding a sale that has received nothing but its down payment hands back exactly
      the down payment. */
  lemma DevolverTrasVenta(p: Politica, hoy: Fecha, f: FormularioVenta, lote: Lote, usuario: Option<nat>, dia: Fecha)
    ensures var (k, l) := CrearVenta(p, hoy, f, lote, usuario);
      Devolver(k, l, dia, true).2 == Some(if f.entrada > 0 then f.entrada else 0)
  {
    var ps := PagoDeEntrada(f, usuario);
    if f.entrada > 0 {
      assert SumaMontos(ps) == ps[0].monto + SumaMontos(ps[1..]);
    }
  }

  // ---------------------------------------------------------------------
  // Reading the note back (the Word export)

  /** The bank and account parsed out of a note, or `None` when the note does not carry both
      headings or Python's `split(...)[1]` would raise (the export swallows the error). */
  function LeerDatosBancarios(obs: string): (r: Option<(string, string)>)
    ensures r.Some? ==> Contains(obs, CABECERA_BANCO) && Contains(obs, CABECERA_CUENTA)
  {
    if Contains(obs, CABECERA_BANCO) && Contains(obs, CABECERA_CUENTA) then
      match SplitSecond(obs, CABECERA_BANCO)
      case None => None
      case Some(restoBanco) =>
        if Contains(restoBanco, SEPARADOR_CUENTA) then
          var (parteBanco, _, parteCuenta) := Partition(restoBanco, SEPARADOR_CUENTA);
          Some((Strip(parteBanco), Strip(RStripDots(parteCuenta))))
        else
          var parteBanco := RStripDots(Strip(SplitFirst(restoBanco, CABECERA_CUENTA)));
          match SplitSecond(restoBanco, CABECERA_CUENTA)
          case None => None
          case Some(c) => Some((parteBanco, RStripDots(Strip(c))))
    else None
  }

  /** `DEPÓSITO`, with its accented O. */
  const DEPOSITO_ACENTUADO: string := "DEP" + [0xD3 as char] + "SITO"

  /** The method label and bank details the Word export derives from the contract's first
      payment. */
  function LeerPagoEntrada(pagos: seq<Pago>): (r: (string, Option<(string, string)>))
    ensures r.1.Some? ==> r.0 == "TRANSFERENCIA BANCARIA"
    ensures r.0 in {"TRANSFERENCIA BANCARIA", DEPOSITO_ACENTUADO, "EFECTIVO"}
    ensures |pagos| == 0 ==> r == ("EFECTIVO", None)
  {
    if |pagos| == 0 then ("EFECTIVO", None)
    else
      var obs := match pagos[0].observacion case Some(o) => o case None => "";
      if Contains(obs, "TRANSFERENCIA") then ("TRANSFERENCIA BANCARIA", LeerDatosBancarios(obs))
      else if Contains(obs, "DEPOSITO") then (DEPOSITO_ACENTUADO, None)
      else ("EFECTIVO", None)
  }

  /** The text `LeerDatosBancarios` must not be fooled by inside the bank name and the account. */
  predicate DatosLimpios(banco: string, cuenta: string) {
    && Trimmed(banco) && Trimmed(cuenta)
    && !Contains(banco, CABECERA_BANCO) && !Contains(banco, SEPARADOR_CUENTA)
    && !Contains(cuenta, CABECERA_BANCO)
    && (|cuenta| == 0 || cuenta[|cuenta| - 1] != '.')
  }

  /** What a transfer's note says before its bank heading. */
  const CABEZA_TRANSFERENCIA := "Pago de Entrada (" + "TRANSFERENCIA" + ")." + " "

  lemma NotaTransferencia(banco: string, cuenta: string)
    ensures NotaEntrada("TRANSFERENCIA", banco, cuenta)
         == CABEZA_TRANSFERENCIA + CABECERA_BANCO + RestoBanco(banco, cuenta)
    ensures NotaEntrada("TRANSFERENCIA", banco, cuenta)
         == "Pago de Entrada (" + "TRANSFERENCIA" + (")." + DatosBancarios(banco, cuenta))
  {
    var cabeza := "Pago de Entrada (" + "TRANSFERENCIA" + ").";
    var resto := RestoBanco(banco, cuenta);
    assert NotaEntrada("TRANSFERENCIA", banco, cuenta) == cabeza + (" " + CABECERA_BANCO + resto);
    assert cabeza + (" " + CABECERA_BANCO + resto) == (cabeza + " ") + CABECERA_BANCO + resto;
  }

  lemma SinCabeceraBanco(banco: string, cuenta: string)
    requires !Contains(banco, CABECERA_BANCO) && !Contains(cuenta, CABECERA_BANCO)
    ensures !Contains(RestoBanco(banco, cuenta), CABECERA_BANCO)
  {
    var p := CABECERA_BANCO;
    var cola := SEPARADOR_CUENTA + " " + cuenta + ".";
    MissingCharacter(".", p, 'B');
    NoneOnEitherSide(cuenta, ".", p);
    assert cola == (SEPARADOR_CUENTA + " ") + (cuenta + ".");
    NoneInHead(SEPARADOR_CUENTA + " ", cuenta + ".", p);
    NoneOnEitherSide(banco, cola, p);
    assert RestoBanco(banco, cuenta) == " " + (banco + cola);
    NoneInHead(" ", banco + cola, p);
  }

  /** The note's first bank heading is the one the details follow. */
  lemma PrimeraCabecera(banco: string, cuenta: string)
    requires !Contains(banco, CABECERA_BANCO) && !Contains(cuenta, CABECERA_BANCO)
    ensures var obs := NotaEntrada("TRANSFERENCIA", banco, cuenta);
      Contains(obs, CABECERA_BANCO) && SplitSecond(obs, CABECERA_BANCO) == Some(RestoBanco(banco, cuenta))
  {
    var resto := RestoBanco(banco, cuenta);
    NotaTransferencia(banco, cuenta);
    MissingCharacter(CABEZA_TRANSFERENCIA, CABECERA_BANCO, 'B');
    FindAfterHead(CABEZA_TRANSFERENCIA, CABECERA_BANCO, resto);
    SinCabeceraBanco(banco, cuenta);
  }

  lemma CuentaEnNota(banco: string, cuenta: string)
    ensures Contains(NotaEntrada("TRANSFERENCIA", banco, cuenta), CABECERA_CUENTA)
  {
    NotaTransferencia(banco, cuenta);
    var x := CABEZA_TRANSFERENCIA + CABECERA_BANCO + " " + banco + ". ";
    assert NotaEntrada("TRANSFERENCIA", banco, cuenta) == x + CABECERA_CUENTA + (" " + cuenta + ".");
    ContainsLiteral(x, CABECERA_CUENTA, " " + cuenta + ".");
  }

  /** Inside the rest, the account separator comes right after the bank name. */
  lemma SeparadorTrasBanco(banco: string, cuenta: string)
    requires !Contains(banco, SEPARADOR_CUENTA)
    ensures Contains(RestoBanco(banco, cuenta), SEPARADOR_CUENTA)
    ensures Partition(RestoBanco(banco, cuenta), SEPARADOR_CUENTA) == (" " + banco, true, " " + cuenta + ".")
  {
    var pb := " " + banco;
    var pc := " " + cuenta + ".";
    assert RestoBanco(banco, cuenta) == pb + SEPARADOR_CUENTA + pc;
    MissingCharacter(" ", SEPARADOR_CUENTA, '.');
    NoneInHead(" ", banco, SEPARADOR_CUENTA);
    FindAfterHead(pb, SEPARADOR_CUENTA, pc);
  }

  lemma CuentaLimpia(cuenta: string)
    requires Trimmed(cuenta) && (|cuenta| == 0 || cuenta[|cuenta| - 1] != '.')
    ensures Strip(RStripDots(" " + cuenta + ".")) == cuenta
  {
    RStripDotsDrops(" " + cuenta);
    RStripDotsKeeps(" " + cuenta);
    StripSpaceThenTrimmed(cuenta);
  }

  /** A transfer's note gives back the bank and account it was written with. */
  lemma DatosBancariosIdaYVuelta(banco: string, cuenta: string)
    requires DatosLimpios(banco, cuenta)
    ensures LeerDatosBancarios(NotaEntrada("TRANSFERENCIA", banco, cuenta)) == Some((banco, cuenta))
  {
    PrimeraCabecera(banco, cuenta);
    CuentaEnNota(banco, cuenta);
    SeparadorTrasBanco(banco, cuenta);
    StripSpaceThenTrimmed(banco);
    CuentaLimpia(cuenta);
  }

  /** The three form choices as the Word export later labels them, and as they are stored. */
  lemma TransferenciaIdaYVuelta(f: FormularioVenta, usuario: Option<nat>)
    requires f.entrada > 0 && f.metodoEntrada == "TRANSFERENCIA"
    requires DatosLimpios(f.bancoEntrada, f.cuentaEntrada)
    ensures PagoDeEntrada(f, usuario)[0].metodo == Transferencia
    ensures LeerPagoEntrada(PagoDeEntrada(f, usuario))
         == ("TRANSFERENCIA BANCARIA", Some((f.bancoEntrada, f.cuentaEntrada)))
  {
    DatosBancariosIdaYVuelta(f.bancoEntrada, f.cuentaEntrada);
    NotaTransferencia(f.bancoEntrada, f.cuentaEntrada);
    ContainsLiteral("Pago de Entrada (", "TRANSFERENCIA", ")." + DatosBancarios(f.bancoEntrada, f.cuentaEntrada));
  }

  /** The fixed words around the method in a note use none of the letters R, D and F. */
  lemma LetraFueraDeNota(metodo: string, c: char)
    requires c == 'R' || c == 'D' || c == 'F'
    requires c !in metodo
    ensures c !in "Pago de Entrada (" + metodo + ")."
  {
    var cabeza := "Pago de Entrada (";
    assert forall i :: 0 <= i < |cabeza| ==> cabeza[i] != c;
  }

  lemma DepositoIdaYVuelta(f: FormularioVenta, usuario: Option<nat>)
    requires f.entrada > 0 && f.metodoEntrada == "DEPOSITO"
    ensures PagoDeEntrada(f, usuario)[0].metodo == Transferencia
    ensures LeerPagoEntrada(PagoDeEntrada(f, usuario)) == (DEPOSITO_ACENTUADO, None)
  {
    var nota := NotaEntrada(f.metodoEntrada, f.bancoEntrada, f.cuentaEntrada);
    assert nota == "Pago de Entrada (" + f.metodoEntrada + ").";
    LetraFueraDeNota(f.metodoEntrada, 'F');
    MissingCharacter(nota, "TRANSFERENCIA", 'F');
    ContainsLiteral("Pago de Entrada (", f.metodoEntrada, ").");
  }

  lemma EfectivoIdaYVuelta(f: FormularioVenta, usuario: Option<nat>)
    requires f.entrada > 0 && f.metodoEntrada == "EFECTIVO"
    ensures PagoDeEntrada(f, usuario)[0].metodo == Efectivo
    ensures LeerPagoEntrada(PagoDeEntrada(f, usuario)) == ("EFECTIVO", None)
  {
    var nota := NotaEntrada(f.metodoEntrada, f.bancoEntrada, f.cuentaEntrada);
    assert nota == "Pago de Entrada (" + f.metodoEntrada + ").";
    LetraFueraDeNota(f.metodoEntrada, 'R');
    LetraFueraDeNota(f.metodoEntrada, 'D');
    MissingCharacter(nota, "TRANSFERENCIA", 'R');
    MissingCharacter(nota, "DEPOSITO", 'D');
  }
}

=== FILE: wrappers.dfy ===
/** Small failure-carrying datatypes shared by the rest of the model. */
module Wrappers {

  /** A value that may be absent (Python `None`, a missing row, a falsy string). */
  datatype Option<+T> = None | Some(value: T)

  /** The outcome of an operation that can be refused with an error. */
  datatype Result<+T, +E> = Success(value: T) | Failure(error: E)
}
